=== FILE: README.md ===
# Robot Framework result aggregation, modelled in Dafny

This project models the aggregation core of the `rf_results.py` helper script.
The script loads one or more Robot Framework `output.xml` results, walks the
result tree with a `CollectVisitor`, and builds a JSON report with up to four
sections: `summary`, `details`, `errors` and `timing`. The model covers:

- status classification into pass/fail/skip counters;
- the visitor's walk with its suite and test name stacks;
- criticality grouping;
- parsing of the `--sections` list;
- `build_output` itself, which includes:
  - correlating failed tests with their first failing keyword;
  - per-tag and per-criticality counters, sorted by key;
  - the failed-test listings;
  - the stable "slowest" rankings.

Modules, one file each:

- `Text` (`text.dfy`): the Python string operations the code relies on, written out. These are `str.strip`, `str.split(",")`, ASCII `lower()`/`upper()`, and code-point order for `sorted`.
- `Stats` (`stats.dfy`): `_status_key`, `_new_stats` and `_update_stats`.
- `Model` (`model.dfy`): the immutable result tree (suites, tests, keywords) with the attributes the script reads.
- `Collect` (`collect.dfy`): `CollectVisitor`. The mutable visitor becomes a value threaded through a recursive walk. A stack-free reference description shows what the walk collects.
- `Criticality` (`criticality.dfy`): `_critical_group`.
- `Sections` (`sections.dfy`): `_parse_sections`.
- `Tally` (`tally.dfy`): a `dict` of counters, kept in its emitted form `sorted(d.items())` and updated by `setdefault` + `_update_stats`.
- `Breakdown` (`breakdown.dfy`): the tag and criticality counters of the details section.
- `Correlate` (`correlate.dfy`): `keyword_errors_by_test`, `keyword_path`, and the two failed-test listings.
- `Ranking` (`ranking.dfy`): `sort(key=..., reverse=True)` followed by `[:limit]`.
- `Report` (`report.dfy`): `build_output`.

Assumptions the model makes explicit:

- **Dispatch order.** The order in which Robot Framework's `ResultVisitor` fires the hooks is not visible in the script. The walk assumes:
  - a suite fires start, setup keywords, child suites, tests, teardown keywords, end;
  - a test fires start, its keywords (setup, body and teardown flattened into `body`), end;
  - a keyword fires start, then its nested keywords in pre-order.

  The properties of collected names, the stacks and the include flag do not depend on the relative order of siblings. Only "document order" is relative to this assumption.
- **Missing values.** Missing strings are `""` and missing elapsed times are `0`. The script reads `None` or an absent attribute in those places, and each `(x or "")` test treats them alike.
- **Correlation key.** The key is the concatenated string `suite + "." + test`, exactly as the script builds it. Distinct (suite, test) pairs can therefore share a key, and `Correlate.KeysCanCollide` exhibits such a pair.

## Model

| member | source | states |
|---|---|---|
| Stats.Update | docs/GeneralAiTopics/AgentSkills/example/robotframework-results/scripts/rf_results.py:27-38 | One update raises `total` by one and raises exactly the counter its status classifies as (case-insensitive "PASS" → passed, "FAIL" → failed, anything else → skipped), so `total == passed + failed + skipped` is kept |
| Stats.KeyOfIgnoresCase | docs/GeneralAiTopics/AgentSkills/example/robotframework-results/scripts/rf_results.py:27-33 | Classification ignores case; the FAIL test used elsewhere agrees with the "failed" class |
| Stats.CountIsTally | docs/GeneralAiTopics/AgentSkills/example/robotframework-results/scripts/rf_results.py:36-42 | Starting from the fresh counter, any sequence of updates satisfies the invariant, and each field equals the number of statuses in its class |
| Text.StripSpec | docs/GeneralAiTopics/AgentSkills/example/robotframework-results/scripts/rf_results.py:184 | `strip()` returns the slice between the outermost non-whitespace characters, and is empty exactly when the item is all whitespace |
| Text.StripKeepsAbsent | docs/GeneralAiTopics/AgentSkills/example/robotframework-results/scripts/rf_results.py:184 | `strip()` only removes characters, so an item without a comma still has none after stripping |
| Text.SplitSpec | docs/GeneralAiTopics/AgentSkills/example/robotframework-results/scripts/rf_results.py:184 | `split(",")` yields comma-free parts that join back to the input |
| Text.SplitJoin | docs/GeneralAiTopics/AgentSkills/example/robotframework-results/scripts/rf_results.py:184 | Splitting comma-free parts joined by commas gives the parts back |
| Text.StrLessTotal | docs/GeneralAiTopics/AgentSkills/example/robotframework-results/scripts/rf_results.py:283-289 | The string order used by `sorted` is total on distinct strings (with irreflexivity and transitivity lemmas beside it) |
| Collect.StartKeyword | docs/GeneralAiTopics/AgentSkills/example/robotframework-results/scripts/rf_results.py:74-88 | A keyword is appended to `keywords` only when keyword detail is on; it adds an error record, attributed to the innermost open suite and test, exactly when its status is FAIL; nothing else changes |
| Collect.VisitSuite | docs/GeneralAiTopics/AgentSkills/example/robotframework-results/scripts/rf_results.py:55-63 | Walking a suite leaves both name stacks exactly as they were before it |
| Collect.VisitTest | docs/GeneralAiTopics/AgentSkills/example/robotframework-results/scripts/rf_results.py:65-72 | Walking a test leaves both name stacks exactly as they were before it |
| Collect.FailuresCount | docs/GeneralAiTopics/AgentSkills/example/robotframework-results/scripts/rf_results.py:79-88 | One error record per FAIL keyword, duplicates included: the record count equals the number of keywords whose status classifies as "failed" |
| Collect.FailuresMembers | docs/GeneralAiTopics/AgentSkills/example/robotframework-results/scripts/rf_results.py:79-88 | A record is listed exactly when a FAIL keyword at some position produces it (its name, owning test and suite, message and elapsed time) |
| Collect.FailuresAppend | docs/GeneralAiTopics/AgentSkills/example/robotframework-results/scripts/rf_results.py:79-88 | Records keep keyword order: the records of two keyword runs back to back are the first run's records followed by the second's |
| Collect.SuiteWalk | docs/GeneralAiTopics/AgentSkills/example/robotframework-results/scripts/rf_results.py:55-88 | The stack-threading walk of a suite adds exactly the stack-free harvest, with every name attributed to the lexically enclosing suite and test |
| Collect.WalkCollects | docs/GeneralAiTopics/AgentSkills/example/robotframework-results/scripts/rf_results.py:45-88 | A walk collects the following, in document order, and ends with both stacks empty: the suites with direct tests; one (suite name, test) entry per test, where the name is the longname or else the name; every keyword, only when detail is on; every FAIL keyword's record |
| Collect.KeywordErrorsIgnoreDetailFlag | docs/GeneralAiTopics/AgentSkills/example/robotframework-results/scripts/rf_results.py:77-80 | Failing-keyword records are the same whether keyword detail is on or off; with it off, `keywords` is empty |
| Collect.StrayKeywordGetsEmptyNames | docs/GeneralAiTopics/AgentSkills/example/robotframework-results/scripts/rf_results.py:75-86 | A failing keyword with no open suite or test is recorded with "" for both names |
| Criticality.Group | docs/GeneralAiTopics/AgentSkills/example/robotframework-results/scripts/rf_results.py:91-105 | The group is one of the three names; an explicit flag decides alone; otherwise a lower-cased "critical" tag wins over "noncritical"/"non-critical"; "unspecified" exactly when there is neither a flag nor such a tag |
| Criticality.GroupIgnoresTagCase | docs/GeneralAiTopics/AgentSkills/example/robotframework-results/scripts/rf_results.py:100-104 | Changing the case of tags never changes the group |
| Criticality.FlagBeatsTags | docs/GeneralAiTopics/AgentSkills/example/robotframework-results/scripts/rf_results.py:92-97 | With an explicit flag, replacing the tags never changes the group |
| Sections.AllSectionsClean | docs/GeneralAiTopics/AgentSkills/example/robotframework-results/scripts/rf_results.py:187-188 | The expansion of "all" is four clean names, none of them "all" |
| Sections.CleanItemsEmpty | docs/GeneralAiTopics/AgentSkills/example/robotframework-results/scripts/rf_results.py:184 | The item list is empty exactly when every part strips to nothing |
| Sections.CleanItemsAreClean | docs/GeneralAiTopics/AgentSkills/example/robotframework-results/scripts/rf_results.py:184 | Each kept item is non-empty, stripped, lower-case and comma-free |
| Sections.ParseSpec | docs/GeneralAiTopics/AgentSkills/example/robotframework-results/scripts/rf_results.py:183-189 | `[]` exactly when every comma-separated item is blank; the four sections if any item reads "all"; otherwise the cleaned items in input order, unknown names kept; every name returned is clean and never "all" |
| Sections.CleanItemsKeepsClean | docs/GeneralAiTopics/AgentSkills/example/robotframework-results/scripts/rf_results.py:184 | Items that are already clean pass through the cleaning unchanged and in order |
| Sections.ParseJoin | docs/GeneralAiTopics/AgentSkills/example/robotframework-results/scripts/rf_results.py:183-189 | Parsing a non-empty list of clean names, none of them "all", joined by commas returns those names |
| Sections.ParseIdempotent | docs/GeneralAiTopics/AgentSkills/example/robotframework-results/scripts/rf_results.py:183-189 | Re-parsing the joined result of a parse changes nothing |
| Tally.GetPresent | docs/GeneralAiTopics/AgentSkills/example/robotframework-results/scripts/rf_results.py:283-289 | Lookup in the sorted list finds a key exactly when the key is listed |
| Tally.BumpSpec | docs/GeneralAiTopics/AgentSkills/example/robotframework-results/scripts/rf_results.py:257-262 | `setdefault` + update keeps the list strictly sorted, updates only the bumped key (from the fresh counter if it was absent), adds that key, and raises the sum of totals by one |
| Breakdown.BumpAllGet | docs/GeneralAiTopics/AgentSkills/example/robotframework-results/scripts/rf_results.py:256-258 | Bumping a test's tags adds to each tag one status per occurrence of the tag and leaves other tags alone |
| Breakdown.TallyBySpec | docs/GeneralAiTopics/AgentSkills/example/robotframework-results/scripts/rf_results.py:251-262 | A tally over the collected tests is sorted by key and keeps the counter invariant. Its totals sum to the number of labels seen. A label is present exactly when it occurs, and its counter then holds its per-status and total occurrences |
| Breakdown.TestBumpsEachTagOnce | docs/GeneralAiTopics/AgentSkills/example/robotframework-results/scripts/rf_results.py:256-258 | A test with K distinct tags updates exactly those K tag counters, each once with its status |
| Breakdown.CriticalityCounts | docs/GeneralAiTopics/AgentSkills/example/robotframework-results/scripts/rf_results.py:260-262 | Criticality totals sum to the number of tests. Only the three group names appear, and a group appears exactly when some test is in it |
| Correlate.FirstErrorsSpec | docs/GeneralAiTopics/AgentSkills/example/robotframework-results/scripts/rf_results.py:202-206 | The index holds a key exactly when some record has it, and then holds the first such record |
| Correlate.KeywordPathSpec | docs/GeneralAiTopics/AgentSkills/example/robotframework-results/scripts/rf_results.py:264-270 | A failed test gets a path exactly when the first record under its key names a keyword, and the path is `suite.test.keyword` |
| Correlate.KeysCanCollide | docs/GeneralAiTopics/AgentSkills/example/robotframework-results/scripts/rf_results.py:204-206 | Two different (suite, test) pairs share a key, so a test picks up another test's failing keyword |
| Correlate.FailedTestsAppend | docs/GeneralAiTopics/AgentSkills/example/robotframework-results/scripts/rf_results.py:255-277 | The failed-test listing distributes over concatenation of the visitor's tests, so it keeps visitor order |
| Correlate.FailedTestsMembers | docs/GeneralAiTopics/AgentSkills/example/robotframework-results/scripts/rf_results.py:264-277 | An entry is listed exactly for each FAIL test |
| Correlate.FailedTestsCount | docs/GeneralAiTopics/AgentSkills/example/robotframework-results/scripts/rf_results.py:264 | The listing has one entry per test the counters classify as failed |
| Correlate.FailedListsAgree | docs/GeneralAiTopics/AgentSkills/example/robotframework-results/scripts/rf_results.py:294-310 | The errors section's `continue`-based listing equals the details section's listing |
| Ranking.SortDescSpec | docs/GeneralAiTopics/AgentSkills/example/robotframework-results/scripts/rf_results.py:327 | The reverse sort is a descending permutation that keeps, for every elapsed value, the input order of the items with that value |
| Ranking.InsertWithKey | docs/GeneralAiTopics/AgentSkills/example/robotframework-results/scripts/rf_results.py:327 | One insertion step puts the item ahead of every item with the same elapsed value and moves no other value's items |
| Ranking.DescendingUnique | docs/GeneralAiTopics/AgentSkills/example/robotframework-results/scripts/rf_results.py:346 | Two descending lists that agree on every per-key subsequence are equal. The three sort facts therefore determine the stable sort's result |
| Ranking.SlowestSpec | docs/GeneralAiTopics/AgentSkills/example/robotframework-results/scripts/rf_results.py:327-328 | Truncation gives `min(n, limit)` items, descending, as a prefix of the full ranking; no dropped item is slower than a kept one |
| Report.BuildOutput | docs/GeneralAiTopics/AgentSkills/example/robotframework-results/scripts/rf_results.py:192-351 | `meta` is always present. Each section is present exactly when its name is requested. `slowest_keywords` is present exactly when keyword timing is requested |
| Report.FailedSectionsAgree | docs/GeneralAiTopics/AgentSkills/example/robotframework-results/scripts/rf_results.py:264-310 | Details and errors list the same failed tests, one per failed test, each with the keyword path of its key's first failing keyword |
| Report.DetailsCounters | docs/GeneralAiTopics/AgentSkills/example/robotframework-results/scripts/rf_results.py:251-290 | The tag and criticality lists are sorted and keep the invariant. Their totals sum to the tag occurrences and to the number of tests. Only the groups that occur are listed |
| Report.TimingRanks | docs/GeneralAiTopics/AgentSkills/example/robotframework-results/scripts/rf_results.py:317-349 | The test ranking has `min(n, max_tests)` entries, is slowest-first and stable, and drops none slower than one kept; with keyword timing on, the keyword ranking has `min(n, max_keywords)` entries, is the head of the stable slowest-first sort of the keywords, and drops none slower than one kept |
| Report.DocumentReport | docs/GeneralAiTopics/AgentSkills/example/robotframework-results/scripts/rf_results.py:208-347 | Over a walked document and for any choice of sections: a summary counts the suites with direct tests and every test; an errors section carries every failing keyword; a keyword ranking is drawn from the document's keywords |

## Left out

- Loading results (`_load_result`, `rebot`, temporary files), `parse_args`, `main` and JSON printing: I/O and command-line glue. The model starts from an already loaded result tree.
- `_elapsed_ms`: elapsed times are given `nat` fields. The float arithmetic on `timedelta` and the attribute probing are not modelled; an absent time is 0.
- `_extract_execution_errors` and `_message_to_dict`: execution errors are an opaque given sequence, passed through unchanged.
- `result.statistics`, `suite.statistics` and `suite.status`: Robot Framework precomputes these. They are given inputs, and nothing is proved about their agreement with the walk.
- Robot Framework's visitor dispatch order: it is assumed as described above, since it is not part of the script.
- The distinction between keywords and control structures (FOR, IF, …) is not visible in the script and is not modelled. Every body item is a keyword.
- `Text.Lower`/`Text.Upper`: only ASCII letters change case. Python's full Unicode case mapping is not modelled.
- Tags are taken as the given sequence. Robot Framework's own tag normalisation and de-duplication are not part of this model, so `Breakdown.TestBumpsEachTagOnce` assumes distinct tags.
- `max_tests` and `max_keywords` are natural numbers. Python's negative-slice behaviour (`[:-k]` drops the last k items) is not modelled.
- `test.critical` values other than `True` and `False`, a missing attribute, and an attribute whose access raises `AttributeError` all behave as an absent flag, which is `None` here. An attribute whose access raises any other exception on the presence test makes `_critical_group`, and with it the whole report, fail. That exception path is not modelled.
- JSON key names are not modelled. The details listing calls the failed test's name `name` and the errors listing calls it `test`; both are the `test` field of one `Correlate.FailedTest` record, so `Correlate.FailedListsAgree` compares contents, not key spellings.

=== FILE: breakdown.dfy ===
/**
 * The per-tag and per-criticality-group counters of the details section.
 * Both are built the same way: each collected test, in visitor order, bumps
 * the counter of every label it carries with its status. Tags are the
 * test's tags as given; the criticality label is the test's one group.
 */
module Breakdown {
  import opened Stats
  import opened Model
  import opened Collect
  import opened Criticality
  import opened Tally

  /** Adds `n` items of one status at once. */
  function AddN(c: Counter, n: nat, status: string): Counter {
    Counter(c.passed + (if KeyOf(status) == Passed then n else 0),
            c.failed + (if KeyOf(status) == Failed then n else 0),
            c.skipped + (if KeyOf(status) == Skipped then n else 0),
            c.total + n)
  }

  /** One more update before `n` more is `n + 1` at once. */
  lemma {:induction false} AddNStep(c: Counter, n: nat, status: string)
    ensures AddN(Update(c, status), n, status) == AddN(c, n + 1, status)
  {
  }

  /** How many times `key` occurs in `labels`. */
  function Occurs(labels: seq<string>, key: string): nat {
    if |labels| == 0 then 0 else (if labels[0] == key then 1 else 0) + Occurs(labels[1..], key)
  }

  lemma {:induction false} OccursDistinct(labels: seq<string>, i: nat)
    requires i < |labels|
    requires forall a, b :: 0 <= a < b < |labels| ==> labels[a] != labels[b]
    ensures Occurs(labels, labels[i]) == 1
    decreases |labels|
  {
    if i == 0 {
      OccursAbsent(labels[1..], labels[0]);
    } else {
      OccursDistinct(labels[1..], i - 1);
    }
  }

  lemma {:induction false} OccursAbsent(labels: seq<string>, key: string)
    requires forall a :: 0 <= a < |labels| ==> labels[a] != key
    ensures Occurs(labels, key) == 0
    decreases |labels|
  {
    if |labels| > 0 {
      OccursAbsent(labels[1..], key);
    }
  }

  /** Bumps the counter of each label in turn, a repeated label once per occurrence. */
  function BumpAll(t: seq<Entry>, labels: seq<string>, status: string): seq<Entry>
    decreases |labels|
  {
    if |labels| == 0 then t else BumpAll(Bump(t, labels[0], status), labels[1..], status)
  }

  /** Bumping a list of keys keeps the table sorted and raises the sum of totals by the list's length. */
  lemma {:induction false} BumpAllShape(t: seq<Entry>, labels: seq<string>, status: string)
    requires Sorted(t)
    ensures Sorted(BumpAll(t, labels, status))
    ensures SumTotals(BumpAll(t, labels, status)) == SumTotals(t) + |labels|
    ensures AllValid(t) ==> AllValid(BumpAll(t, labels, status))
    decreases |labels|
  {
    if |labels| > 0 {
      BumpSorted(t, labels[0], status);
      BumpSum(t, labels[0], status);
      BumpAllShape(Bump(t, labels[0], status), labels[1..], status);
    }
  }

  /**
   * Bumping a list of keys counts, under each key, one more status per
   * occurrence of that key, and leaves keys that do not occur as they were.
   */
  lemma {:induction false} BumpAllGet(t: seq<Entry>, labels: seq<string>, status: string, key: string)
    requires Sorted(t)
    ensures Get(BumpAll(t, labels, status), key)
      == (if Occurs(labels, key) == 0 then Get(t, key)
          else Some(AddN(GetOr(t, key), Occurs(labels, key), status)))
    decreases |labels|
  {
    if |labels| > 0 {
      var t1 := Bump(t, labels[0], status);
      var rest := labels[1..];
      var n := Occurs(rest, key);
      assert Sorted(t1) by { BumpSorted(t, labels[0], status); }
      BumpAllGet(t1, rest, status, key);
      assert BumpAll(t, labels, status) == BumpAll(t1, rest, status);
      if key == labels[0] {
        var c := GetOr(t, key);
        assert Get(t1, key) == Some(Update(c, status)) by { BumpGet(t, labels[0], status); }
        assert GetOr(t1, key) == Update(c, status);
        assert Occurs(labels, key) == n + 1;
        AddNStep(c, n, status);
        assert n == 0 ==> AddN(Update(c, status), n, status) == Update(c, status);
      } else {
        assert Get(t1, key) == Get(t, key) by { BumpGet(t, labels[0], status); }
        assert GetOr(t1, key) == GetOr(t, key);
        assert Occurs(labels, key) == n;
      }
    }
  }

  /** The keys (tags, or the one group) a collected test is counted under. */
  type Labeller = TestEntry -> seq<string>

  /** The counters over `es` in visitor order, as the sorted list the report emits. */
  function TallyBy(es: seq<TestEntry>, labels: Labeller): seq<Entry> {
    if |es| == 0 then []
    else
      var e := es[|es| - 1];
      BumpAll(TallyBy(es[..|es| - 1], labels), labels(e), e.test.status)
  }

  /** How many (test, key occurrence) pairs for `key` there are whose status is of class `k`. */
  function Hits(es: seq<TestEntry>, labels: Labeller, key: string, k: StatusKey): nat {
    if |es| == 0 then 0
    else
      var e := es[|es| - 1];
      Hits(es[..|es| - 1], labels, key, k) + (if KeyOf(e.test.status) == k then Occurs(labels(e), key) else 0)
  }

  /** How many times `key` occurs over all of `es`. */
  function Total(es: seq<TestEntry>, labels: Labeller, key: string): nat {
    if |es| == 0 then 0
    else Total(es[..|es| - 1], labels, key) + Occurs(labels(es[|es| - 1]), key)
  }

  /** How many labels all of `es` carry together. */
  function LabelCount(es: seq<TestEntry>, labels: Labeller): nat {
    if |es| == 0 then 0 else LabelCount(es[..|es| - 1], labels) + |labels(es[|es| - 1])|
  }

  lemma {:induction false} HitsPartition(es: seq<TestEntry>, labels: Labeller, key: string)
    ensures Hits(es, labels, key, Passed) + Hits(es, labels, key, Failed) + Hits(es, labels, key, Skipped)
      == Total(es, labels, key)
    decreases |es|
  {
    if |es| > 0 {
      HitsPartition(es[..|es| - 1], labels, key);
    }
  }

  /** The counter a key should end with: its hits per status class and its total occurrences. */
  function Expected(es: seq<TestEntry>, labels: Labeller, key: string): Counter {
    Counter(Hits(es, labels, key, Passed), Hits(es, labels, key, Failed),
            Hits(es, labels, key, Skipped), Total(es, labels, key))
  }

  /** The tally is sorted by key, every counter keeps the invariant, and the totals add up to the number of keys seen. */
  lemma {:induction false} TallyByShape(es: seq<TestEntry>, labels: Labeller)
    ensures Sorted(TallyBy(es, labels))
    ensures AllValid(TallyBy(es, labels))
    ensures SumTotals(TallyBy(es, labels)) == LabelCount(es, labels)
    decreases |es|
  {
    if |es| > 0 {
      var e := es[|es| - 1];
      TallyByShape(es[..|es| - 1], labels);
      BumpAllShape(TallyBy(es[..|es| - 1], labels), labels(e), e.test.status);
    }
  }

  /** One more test adds its occurrences of `key` to the expected counter; no occurrence means the fresh counter. */
  lemma {:induction false} ExpectedStep(es: seq<TestEntry>, labels: Labeller, key: string)
    requires |es| > 0
    ensures var e := es[|es| - 1];
            Expected(es, labels, key) == AddN(Expected(es[..|es| - 1], labels, key), Occurs(labels(e), key), e.test.status)
    ensures Total(es, labels, key) == Total(es[..|es| - 1], labels, key) + Occurs(labels(es[|es| - 1]), key)
    ensures Total(es[..|es| - 1], labels, key) == 0 ==> Expected(es[..|es| - 1], labels, key) == NewStats()
  {
    HitsPartition(es[..|es| - 1], labels, key);
  }

  /** A key that occurs maps to exactly its expected counter; a key that never occurs is absent. */
  lemma {:induction false} TallyByGet(es: seq<TestEntry>, labels: Labeller, key: string)
    ensures Get(TallyBy(es, labels), key)
      == (if Total(es, labels, key) == 0 then None else Some(Expected(es, labels, key)))
    decreases |es|
  {
    if |es| > 0 {
      var init := es[..|es| - 1];
      var e := es[|es| - 1];
      var t := TallyBy(init, labels);
      var n := Occurs(labels(e), key);
      assert Sorted(t) by { TallyByShape(init, labels); }
      TallyByGet(init, labels, key);
      ExpectedStep(es, labels, key);
      assert GetOr(t, key) == Expected(init, labels, key);
      BumpAllGet(t, labels(e), e.test.status, key);
      var r := TallyBy(es, labels);
      assert r == BumpAll(t, labels(e), e.test.status);
      if n == 0 {
        assert Expected(es, labels, key) == Expected(init, labels, key);
        assert Get(r, key) == Get(t, key);
      } else {
        assert Total(es, labels, key) != 0;
        assert Get(r, key) == Some(AddN(Expected(init, labels, key), n, e.test.status));
      }
    }
  }

  /** The two lemmas above, for every key at once. */
  lemma {:induction false} TallyBySpec(es: seq<TestEntry>, labels: Labeller)
    ensures Sorted(TallyBy(es, labels))
    ensures AllValid(TallyBy(es, labels))
    ensures SumTotals(TallyBy(es, labels)) == LabelCount(es, labels)
    ensures forall key ::
              Get(TallyBy(es, labels), key)
              == (if Total(es, labels, key) == 0 then None else Some(Expected(es, labels, key)))
  {
    TallyByShape(es, labels);
    forall key ensures Get(TallyBy(es, labels), key)
      == (if Total(es, labels, key) == 0 then None else Some(Expected(es, labels, key)))
    {
      TallyByGet(es, labels, key);
    }
  }

  function TagsOf(e: TestEntry): seq<string> {
    e.test.tags
  }

  function GroupOf(e: TestEntry): seq<string> {
    [Group(e.test)]
  }

  /** `tag_stats`, sorted by tag. */
  function TagTally(es: seq<TestEntry>): seq<Entry> {
    TallyBy(es, TagsOf)
  }

  /** `critical_stats`, sorted by group name. */
  function CriticalityTally(es: seq<TestEntry>): seq<Entry> {
    TallyBy(es, GroupOf)
  }

  /**
   * A test whose tags are distinct raises the counter of each of its tags by
   * exactly one update with its status and leaves every other tag alone.
   */
  lemma {:induction false} TestBumpsEachTagOnce(es: seq<TestEntry>, e: TestEntry)
    requires forall a, b :: 0 <= a < b < |e.test.tags| ==> e.test.tags[a] != e.test.tags[b]
    ensures forall i :: 0 <= i < |e.test.tags| ==>
              Get(TagTally(es + [e]), e.test.tags[i]) == Some(Update(GetOr(TagTally(es), e.test.tags[i]), e.test.status))
    ensures forall tag :: tag !in e.test.tags ==> Get(TagTally(es + [e]), tag) == Get(TagTally(es), tag)
  {
    var all := es + [e];
    assert all[..|all| - 1] == es;
    TallyByShape(es, TagsOf);
    forall i | 0 <= i < |e.test.tags| ensures
      Get(TagTally(all), e.test.tags[i]) == Some(Update(GetOr(TagTally(es), e.test.tags[i]), e.test.status))
    {
      OccursDistinct(e.test.tags, i);
      BumpAllGet(TagTally(es), e.test.tags, e.test.status, e.test.tags[i]);
    }
    forall tag | tag !in e.test.tags ensures Get(TagTally(all), tag) == Get(TagTally(es), tag) {
      OccursAbsent(e.test.tags, tag);
      BumpAllGet(TagTally(es), e.test.tags, e.test.status, tag);
    }
  }

  /**
   * Every test lands in exactly one criticality group: the group totals add
   * up to the number of tests, only the three group names can appear, and a
   * group appears exactly when some test is in it.
   */
  lemma {:induction false} CriticalityCounts(es: seq<TestEntry>)
    ensures Sorted(CriticalityTally(es))
    ensures AllValid(CriticalityTally(es))
    ensures SumTotals(CriticalityTally(es)) == |es|
    ensures forall g :: g in Keys(CriticalityTally(es)) ==> g in {CRITICAL, NONCRITICAL, UNSPECIFIED}
    ensures forall g :: g in Keys(CriticalityTally(es)) <==> exists i :: 0 <= i < |es| && Group(es[i].test) == g
  {
    TallyBySpec(es, GroupOf);
    GroupLabelCount(es);
    forall g ensures g in Keys(CriticalityTally(es)) <==> exists i :: 0 <= i < |es| && Group(es[i].test) == g {
      GetPresent(CriticalityTally(es), g);
      GroupTotalPositive(es, g);
    }
  }

  lemma {:induction false} GroupLabelCount(es: seq<TestEntry>)
    ensures LabelCount(es, GroupOf) == |es|
    decreases |es|
  {
    if |es| > 0 {
      GroupLabelCount(es[..|es| - 1]);
    }
  }

  lemma {:induction false} GroupTotalPositive(es: seq<TestEntry>, g: string)
    ensures Total(es, GroupOf, g) > 0 <==> exists i :: 0 <= i < |es| && Group(es[i].test) == g
    decreases |es|
  {
    if |es| > 0 {
      var init := es[..|es| - 1];
      GroupTotalPositive(init, g);
      assert Occurs([Group(es[|es| - 1].test)], g) == if Group(es[|es| - 1].test) == g then 1 else 0;
      if exists i :: 0 <= i < |es| && Group(es[i].test) == g {
        var i :| 0 <= i < |es| && Group(es[i].test) == g;
        if i < |es| - 1 {
          assert Group(init[i].test) == g;
        }
      }
      if exists i :: 0 <= i < |init| && Group(init[i].test) == g {
        var i :| 0 <= i < |init| && Group(init[i].test) == g;
        assert Group(es[i].test) == g;
      }
    }
  }
}

=== FILE: collect.dfy ===
/**
 * `CollectVisitor` as a pure walk over the result tree. The visitor's
 * mutable lists and its two name stacks become fields of an immutable
 * `Visitor` value threaded through the walk; each `start_*`/`end_*` hook is
 * a function from visitor to visitor.
 *
 * The order in which hooks fire belongs to Robot Framework's
 * `ResultVisitor`, which is not part of this model. The walk assumes:
 * a suite fires start, its setup, its child suites, its tests, its
 * teardown, then end; a test fires start, its keywords, then end; a keyword
 * fires start and then its nested keywords (end does nothing).
 */
module Collect {
  import opened Stats
  import opened Model

  /** An entry of `visitor.tests`: the innermost enclosing suite's name and the test. */
  datatype TestEntry = TestEntry(suite: string, test: Test)

  /** An entry of `visitor.keywords`. */
  datatype KeywordEntry = KeywordEntry(suite: string, test: string, keyword: Keyword)

  /** A `keyword_errors` record. */
  datatype KeywordError = KeywordError(keyword: string, test: string, suite: string, message: string, elapsed: nat)

  datatype Visitor = Visitor(
    includeKeywords: bool,
    suites: seq<Suite>,
    tests: seq<TestEntry>,
    keywords: seq<KeywordEntry>,
    keywordErrors: seq<KeywordError>,
    suiteStack: seq<string>,
    testStack: seq<string>)

  function NewVisitor(includeKeywords: bool): Visitor {
    Visitor(includeKeywords, [], [], [], [], [], [])
  }

  /** The innermost open name, or "" when nothing is open. */
  function Top(stack: seq<string>): string {
    if |stack| > 0 then stack[|stack| - 1] else ""
  }

  /** Drops the innermost name; an empty stack stays empty. */
  function Pop(stack: seq<string>): seq<string> {
    if |stack| > 0 then stack[..|stack| - 1] else stack
  }

  function StartSuite(s: Suite, v: Visitor): Visitor {
    v.(suites := if |s.tests| > 0 then v.suites + [s] else v.suites,
       suiteStack := v.suiteStack + [SuiteName(s)])
  }

  function EndSuite(v: Visitor): Visitor {
    v.(suiteStack := Pop(v.suiteStack))
  }

  function StartTest(t: Test, v: Visitor): Visitor {
    v.(tests := v.tests + [TestEntry(Top(v.suiteStack), t)],
       testStack := v.testStack + [t.name])
  }

  function EndTest(v: Visitor): Visitor {
    v.(testStack := Pop(v.testStack))
  }

  /** The error record a failing keyword produces, attributed to its owners. */
  function ErrorOf(e: KeywordEntry): KeywordError {
    KeywordError(e.keyword.name, e.test, e.suite, e.keyword.message, e.keyword.elapsed)
  }

  /**
   * Records the keyword under the innermost open suite and test (or "" for
   * either when none is open): in `keywords` only when keyword detail is on,
   * in `keywordErrors` whenever its status is FAIL, whatever the flag.
   */
  function StartKeyword(k: Keyword, v: Visitor): (r: Visitor)
    ensures r.keywords == v.keywords + (if v.includeKeywords then [KeywordEntry(Top(v.suiteStack), Top(v.testStack), k)] else [])
    ensures |r.keywordErrors| == |v.keywordErrors| + (if IsFail(k.status) then 1 else 0)
    ensures IsFail(k.status) ==>
              r.keywordErrors[|v.keywordErrors|] == KeywordError(k.name, Top(v.testStack), Top(v.suiteStack), k.message, k.elapsed)
    ensures r.keywordErrors[..|v.keywordErrors|] == v.keywordErrors
    ensures r.suites == v.suites && r.tests == v.tests && r.includeKeywords == v.includeKeywords
    ensures r.suiteStack == v.suiteStack && r.testStack == v.testStack
  {
    var e := KeywordEntry(Top(v.suiteStack), Top(v.testStack), k);
    v.(keywords := if v.includeKeywords then v.keywords + [e] else v.keywords,
       keywordErrors := if IsFail(k.status) then v.keywordErrors + [ErrorOf(e)] else v.keywordErrors)
  }

  function VisitKeyword(k: Keyword, v: Visitor): (r: Visitor)
    ensures r.includeKeywords == v.includeKeywords
    ensures r.suiteStack == v.suiteStack && r.testStack == v.testStack
    decreases k
  {
    VisitKeywords(k.body, StartKeyword(k, v))
  }

  function VisitKeywords(ks: seq<Keyword>, v: Visitor): (r: Visitor)
    ensures r.includeKeywords == v.includeKeywords
    ensures r.suiteStack == v.suiteStack && r.testStack == v.testStack
    decreases ks
  {
    if |ks| == 0 then v else VisitKeywords(ks[1..], VisitKeyword(ks[0], v))
  }

  /** Entering a test pushes its name and leaving pops it again. */
  function VisitTest(t: Test, v: Visitor): (r: Visitor)
    ensures r.includeKeywords == v.includeKeywords
    ensures r.suiteStack == v.suiteStack && r.testStack == v.testStack
    decreases t
  {
    EndTest(VisitKeywords(t.body, StartTest(t, v)))
  }

  function VisitTests(ts: seq<Test>, v: Visitor): (r: Visitor)
    ensures r.includeKeywords == v.includeKeywords
    ensures r.suiteStack == v.suiteStack && r.testStack == v.testStack
    decreases ts
  {
    if |ts| == 0 then v else VisitTests(ts[1..], VisitTest(ts[0], v))
  }

  /** Entering a suite pushes its name and leaving pops it: both stacks are back at their depth afterwards. */
  function VisitSuite(s: Suite, v: Visitor): (r: Visitor)
    ensures r.includeKeywords == v.includeKeywords
    ensures r.suiteStack == v.suiteStack && r.testStack == v.testStack
    decreases s
  {
    var v1 := StartSuite(s, v);
    var v2 := VisitKeywords(s.setup, v1);
    var v3 := VisitSuites(s.suites, v2);
    var v4 := VisitTests(s.tests, v3);
    var v5 := VisitKeywords(s.teardown, v4);
    EndSuite(v5)
  }

  function VisitSuites(ss: seq<Suite>, v: Visitor): (r: Visitor)
    ensures r.includeKeywords == v.includeKeywords
    ensures r.suiteStack == v.suiteStack && r.testStack == v.testStack
    decreases ss
  {
    if |ss| == 0 then v else VisitSuites(ss[1..], VisitSuite(ss[0], v))
  }

  /** One walk of the whole document by a fresh visitor. */
  function Walk(root: Suite, includeKeywords: bool): Visitor {
    VisitSuite(root, NewVisitor(includeKeywords))
  }

  // ---------------------------------------------------------------------
  // A stack-free description of what the walk collects. Each keyword, test
  // and suite is attributed to the suite and test that lexically enclose
  // it in the tree, with no stacks involved.
  // ---------------------------------------------------------------------

  datatype Harvest = Harvest(suites: seq<Suite>, tests: seq<TestEntry>, keywords: seq<KeywordEntry>)

  function Plus(a: Harvest, b: Harvest): Harvest {
    Harvest(a.suites + b.suites, a.tests + b.tests, a.keywords + b.keywords)
  }

  /** A keyword and all keywords nested in it, in pre-order. */
  function KeywordTree(k: Keyword, suite: string, test: string): seq<KeywordEntry>
    decreases k
  {
    [KeywordEntry(suite, test, k)] + KeywordForest(k.body, suite, test)
  }

  function KeywordForest(ks: seq<Keyword>, suite: string, test: string): seq<KeywordEntry>
    decreases ks
  {
    if |ks| == 0 then [] else KeywordTree(ks[0], suite, test) + KeywordForest(ks[1..], suite, test)
  }

  function TestsHarvest(ts: seq<Test>, suite: string): Harvest {
    if |ts| == 0 then Harvest([], [], [])
    else Plus(Harvest([], [TestEntry(suite, ts[0])], KeywordForest(ts[0].body, suite, ts[0].name)),
              TestsHarvest(ts[1..], suite))
  }

  /**
   * What walking suite `s` collects when `outerTest` is the innermost open
   * test name outside it ("" at the top of a document).
   */
  function SuiteHarvest(s: Suite, outerTest: string): Harvest
    decreases s
  {
    var n := SuiteName(s);
    Plus(Plus(Plus(Harvest(if |s.tests| > 0 then [s] else [], [], KeywordForest(s.setup, n, outerTest)),
                   SuitesHarvest(s.suites, outerTest)),
              TestsHarvest(s.tests, n)),
         Harvest([], [], KeywordForest(s.teardown, n, outerTest)))
  }

  function SuitesHarvest(ss: seq<Suite>, outerTest: string): Harvest
    decreases ss
  {
    if |ss| == 0 then Harvest([], [], []) else Plus(SuiteHarvest(ss[0], outerTest), SuitesHarvest(ss[1..], outerTest))
  }

  /** The error records of the failing keywords among `es`, in order. */
  function Failures(es: seq<KeywordEntry>): (r: seq<KeywordError>)
    ensures |r| <= |es|
  {
    if |es| == 0 then []
    else (if IsFail(es[0].keyword.status) then [ErrorOf(es[0])] else []) + Failures(es[1..])
  }

  lemma {:induction false} FailuresAppend(a: seq<KeywordEntry>, b: seq<KeywordEntry>)
    ensures Failures(a + b) == Failures(a) + Failures(b)
    decreases |a|
  {
    if |a| == 0 {
      assert a + b == b;
    } else {
      var rest := a[1..];
      var ab := a + b;
      var h := if IsFail(a[0].keyword.status) then [ErrorOf(a[0])] else [];
      FailuresAppend(rest, b);
      assert ab[0] == a[0] && ab[1..] == rest + b;
      assert Failures(ab) == h + Failures(rest + b);
      assert Failures(a) == h + Failures(rest);
      assert h + (Failures(rest) + Failures(b)) == (h + Failures(rest)) + Failures(b);
    }
  }

  /** The statuses of the keywords in `es`, in order. */
  function KeywordStatuses(es: seq<KeywordEntry>): seq<string> {
    seq(|es|, i requires 0 <= i < |es| => es[i].keyword.status)
  }

  /**
   * One error record per failing keyword: as many records as keywords the
   * counters would file under "failed", duplicates included.
   */
  lemma {:induction false} FailuresCount(es: seq<KeywordEntry>)
    ensures |Failures(es)| == Occurrences(KeywordStatuses(es), Failed)
    decreases |es|
  {
    if |es| > 0 {
      var init := es[..|es| - 1];
      var last := es[|es| - 1];
      FailuresCount(init);
      FailuresAppend(init, [last]);
      assert init + [last] == es;
      assert Failures([last]) == (if IsFail(last.keyword.status) then [ErrorOf(last)] else []) + Failures([]);
      assert KeywordStatuses(es)[..|es| - 1] == KeywordStatuses(init);
      KeyOfIgnoresCase(last.keyword.status);
    }
  }

  /** A record is listed exactly when some failing keyword at some position produces it. */
  lemma {:induction false} FailuresMembers(es: seq<KeywordEntry>, e: KeywordError)
    ensures e in Failures(es) <==> exists i :: 0 <= i < |es| && IsFail(es[i].keyword.status) && ErrorOf(es[i]) == e
    decreases |es|
  {
    if |es| > 0 {
      var tail := es[1..];
      FailuresMembers(tail, e);
      assert Failures(es) == (if IsFail(es[0].keyword.status) then [ErrorOf(es[0])] else []) + Failures(tail);
      assert e in Failures(es) <==> (IsFail(es[0].keyword.status) && ErrorOf(es[0]) == e) || e in Failures(tail);
      if exists i :: 0 <= i < |es| && IsFail(es[i].keyword.status) && ErrorOf(es[i]) == e {
        var i :| 0 <= i < |es| && IsFail(es[i].keyword.status) && ErrorOf(es[i]) == e;
        if i > 0 {
          assert tail[i - 1] == es[i];
        }
      }
      if exists i :: 0 <= i < |tail| && IsFail(tail[i].keyword.status) && ErrorOf(tail[i]) == e {
        var i :| 0 <= i < |tail| && IsFail(tail[i].keyword.status) && ErrorOf(tail[i]) == e;
        assert es[i + 1] == tail[i];
      }
    }
  }

  /** The visitor after it has additionally collected `h`. */
  function Extend(v: Visitor, h: Harvest): Visitor {
    v.(suites := v.suites + h.suites,
       tests := v.tests + h.tests,
       keywords := v.keywords + (if v.includeKeywords then h.keywords else []),
       keywordErrors := v.keywordErrors + Failures(h.keywords))
  }

  lemma {:induction false} ExtendPlus(v: Visitor, a: Harvest, b: Harvest)
    ensures Extend(Extend(v, a), b) == Extend(v, Plus(a, b))
  {
    var w := Extend(v, a);
    FailuresAppend(a.keywords, b.keywords);
    assert w.suites + b.suites == v.suites + (a.suites + b.suites);
    assert w.tests + b.tests == v.tests + (a.tests + b.tests);
    if v.includeKeywords {
      assert w.keywords + b.keywords == v.keywords + (a.keywords + b.keywords);
    } else {
      assert w.keywords == v.keywords;
    }
    assert w.keywordErrors + Failures(b.keywords) == v.keywordErrors + Failures(a.keywords + b.keywords);
  }

  lemma {:induction false} KeywordWalk(k: Keyword, v: Visitor)
    ensures VisitKeyword(k, v) == Extend(v, Harvest([], [], KeywordTree(k, Top(v.suiteStack), Top(v.testStack))))
    decreases k
  {
    var e := KeywordEntry(Top(v.suiteStack), Top(v.testStack), k);
    var v1 := StartKeyword(k, v);
    assert v1 == Extend(v, Harvest([], [], [e]));
    KeywordsWalk(k.body, v1);
    ExtendPlus(v, Harvest([], [], [e]), Harvest([], [], KeywordForest(k.body, Top(v.suiteStack), Top(v.testStack))));
  }

  lemma {:induction false} KeywordsWalk(ks: seq<Keyword>, v: Visitor)
    ensures VisitKeywords(ks, v) == Extend(v, Harvest([], [], KeywordForest(ks, Top(v.suiteStack), Top(v.testStack))))
    decreases ks
  {
    var sn := Top(v.suiteStack);
    var tn := Top(v.testStack);
    if |ks| == 0 {
      assert Extend(v, Harvest([], [], [])) == v;
    } else {
      var v1 := VisitKeyword(ks[0], v);
      KeywordWalk(ks[0], v);
      KeywordsWalk(ks[1..], v1);
      ExtendPlus(v, Harvest([], [], KeywordTree(ks[0], sn, tn)), Harvest([], [], KeywordForest(ks[1..], sn, tn)));
    }
  }

  lemma {:induction false} TestsWalk(ts: seq<Test>, v: Visitor)
    ensures VisitTests(ts, v) == Extend(v, TestsHarvest(ts, Top(v.suiteStack)))
    decreases ts
  {
    var sn := Top(v.suiteStack);
    if |ts| == 0 {
      assert Extend(v, Harvest([], [], [])) == v;
    } else {
      var t := ts[0];
      var v1 := StartTest(t, v);
      assert v1.testStack == v.testStack + [t.name];
      assert Top(v1.testStack) == t.name;
      assert v1.suiteStack == v.suiteStack;
      var head := Harvest([], [TestEntry(sn, t)], []);
      var body := Harvest([], [], KeywordForest(t.body, sn, t.name));
      assert v1 == Extend(v, head).(testStack := v.testStack + [t.name]);
      KeywordsWalk(t.body, v1);
      var v2 := VisitKeywords(t.body, v1);
      assert EndTest(v2) == Extend(Extend(v, head), body);
      ExtendPlus(v, head, body);
      assert Plus(head, body) == Harvest([], [TestEntry(sn, t)], KeywordForest(t.body, sn, t.name));
      TestsWalk(ts[1..], EndTest(v2));
      ExtendPlus(v, Plus(head, body), TestsHarvest(ts[1..], sn));
    }
  }

  /** Collecting `a` and then `b` while a suite name is pushed is collecting `Plus(a, b)` under it. */
  lemma {:induction false} ExtendUnder(v: Visitor, a: Harvest, b: Harvest, stack: seq<string>)
    ensures Extend(Extend(v, a).(suiteStack := stack), b) == Extend(v, Plus(a, b)).(suiteStack := stack)
  {
    ExtendPlus(v, a, b);
  }

  /** Visiting keywords with suite stack `stack` on top of what `v` collected as `h`. */
  lemma {:induction false} KeywordsUnder(ks: seq<Keyword>, v: Visitor, h: Harvest, stack: seq<string>)
    ensures VisitKeywords(ks, Extend(v, h).(suiteStack := stack))
      == Extend(v, Plus(h, Harvest([], [], KeywordForest(ks, Top(stack), Top(v.testStack))))).(suiteStack := stack)
  {
    var w := Extend(v, h).(suiteStack := stack);
    assert Top(w.suiteStack) == Top(stack) && Top(w.testStack) == Top(v.testStack);
    KeywordsWalk(ks, w);
    ExtendUnder(v, h, Harvest([], [], KeywordForest(ks, Top(stack), Top(v.testStack))), stack);
  }

  lemma {:induction false} SuitesUnder(ss: seq<Suite>, v: Visitor, h: Harvest, stack: seq<string>)
    ensures VisitSuites(ss, Extend(v, h).(suiteStack := stack))
      == Extend(v, Plus(h, SuitesHarvest(ss, Top(v.testStack)))).(suiteStack := stack)
    decreases ss, 1
  {
    var w := Extend(v, h).(suiteStack := stack);
    assert Top(w.testStack) == Top(v.testStack);
    SuitesWalk(ss, w);
    ExtendUnder(v, h, SuitesHarvest(ss, Top(v.testStack)), stack);
  }

  lemma {:induction false} TestsUnder(ts: seq<Test>, v: Visitor, h: Harvest, stack: seq<string>)
    ensures VisitTests(ts, Extend(v, h).(suiteStack := stack))
      == Extend(v, Plus(h, TestsHarvest(ts, Top(stack)))).(suiteStack := stack)
  {
    var w := Extend(v, h).(suiteStack := stack);
    assert Top(w.suiteStack) == Top(stack);
    TestsWalk(ts, w);
    ExtendUnder(v, h, TestsHarvest(ts, Top(stack)), stack);
  }

  lemma {:induction false} SuiteWalk(s: Suite, v: Visitor)
    ensures VisitSuite(s, v) == Extend(v, SuiteHarvest(s, Top(v.testStack)))
    decreases s
  {
    var n := SuiteName(s);
    var tn := Top(v.testStack);
    var stack := v.suiteStack + [n];
    var first := Harvest(if |s.tests| > 0 then [s] else [], [], []);
    var h1 := Harvest(first.suites, [], KeywordForest(s.setup, n, tn));
    var h2 := Plus(h1, SuitesHarvest(s.suites, tn));
    var h3 := Plus(h2, TestsHarvest(s.tests, n));
    var h4 := Plus(h3, Harvest([], [], KeywordForest(s.teardown, n, tn)));
    assert Top(stack) == n;

    var v1 := StartSuite(s, v);
    assert v1 == Extend(v, first).(suiteStack := stack);
    var v2 := VisitKeywords(s.setup, v1);
    assert v2 == Extend(v, h1).(suiteStack := stack) by {
      KeywordsUnder(s.setup, v, first, stack);
      assert Plus(first, Harvest([], [], KeywordForest(s.setup, n, tn))) == h1;
    }
    var v3 := VisitSuites(s.suites, v2);
    assert v3 == Extend(v, h2).(suiteStack := stack) by { SuitesUnder(s.suites, v, h1, stack); }
    var v4 := VisitTests(s.tests, v3);
    assert v4 == Extend(v, h3).(suiteStack := stack) by { TestsUnder(s.tests, v, h2, stack); }
    var v5 := VisitKeywords(s.teardown, v4);
    assert v5 == Extend(v, h4).(suiteStack := stack) by { KeywordsUnder(s.teardown, v, h3, stack); }
    assert Pop(stack) == v.suiteStack;
    assert h4 == SuiteHarvest(s, tn);
  }

  lemma {:induction false} SuitesWalk(ss: seq<Suite>, v: Visitor)
    ensures VisitSuites(ss, v) == Extend(v, SuitesHarvest(ss, Top(v.testStack)))
    decreases ss, 0
  {
    if |ss| == 0 {
      assert Extend(v, Harvest([], [], [])) == v;
    } else {
      var v1 := VisitSuite(ss[0], v);
      SuiteWalk(ss[0], v);
      SuitesWalk(ss[1..], v1);
      ExtendPlus(v, SuiteHarvest(ss[0], Top(v.testStack)), SuitesHarvest(ss[1..], Top(v.testStack)));
    }
  }

  /**
   * What one walk of a document collects: the suites with direct tests, the
   * tests with their owning suite, every keyword (only when keyword detail
   * is on) and every failing keyword (always), each under the suite and test
   * that enclose it, in document order; both stacks end empty.
   */
  lemma {:induction false} WalkCollects(root: Suite, includeKeywords: bool)
    ensures var v := Walk(root, includeKeywords);
            var h := SuiteHarvest(root, "");
            && v.suites == h.suites
            && v.tests == h.tests
            && v.keywords == (if includeKeywords then h.keywords else [])
            && v.keywordErrors == Failures(h.keywords)
            && v.suiteStack == [] && v.testStack == []
  {
    SuiteWalk(root, NewVisitor(includeKeywords));
  }

  /** Failure capture does not depend on the keyword-detail flag; the keyword list is empty without it. */
  lemma {:induction false} KeywordErrorsIgnoreDetailFlag(root: Suite)
    ensures Walk(root, true).keywordErrors == Walk(root, false).keywordErrors
    ensures Walk(root, false).keywords == []
  {
    WalkCollects(root, true);
    WalkCollects(root, false);
  }

  /** A keyword visited with no suite or test open is attributed to "" for both. */
  lemma {:induction false} StrayKeywordGetsEmptyNames(k: Keyword, includeKeywords: bool)
    requires IsFail(k.status)
    ensures |VisitKeyword(k, NewVisitor(includeKeywords)).keywordErrors| > 0
    ensures VisitKeyword(k, NewVisitor(includeKeywords)).keywordErrors[0]
      == KeywordError(k.name, "", "", k.message, k.elapsed)
  {
    KeywordWalk(k, NewVisitor(includeKeywords));
    assert KeywordTree(k, "", "")[0] == KeywordEntry("", "", k);
  }
}

=== FILE: correlate.dfy ===
/**
 * Correlating failed tests with failed keywords. The failing-keyword records
 * are indexed by the string `suite + "." + test` (first record wins); a
 * failed test looks itself up under the same string and, when the first
 * record there names a keyword, reports the path `suite.test.keyword`.
 * The same list of failed tests feeds both the details and the errors
 * section.
 */
module Correlate {
  import opened Stats
  import opened Model
  import opened Collect

  /** The lookup key: the two names joined by a dot, so distinct pairs can share a key. */
  function ErrorKey(suite: string, test: string): string {
    suite + "." + test
  }

  function KeyOfError(e: KeywordError): string {
    ErrorKey(e.suite, e.test)
  }

  /** `keyword_errors_by_test`: records in order, each key keeping the first record seen. */
  function FirstErrors(errs: seq<KeywordError>): map<string, KeywordError> {
    if |errs| == 0 then map[]
    else
      var m := FirstErrors(errs[..|errs| - 1]);
      var e := errs[|errs| - 1];
      if KeyOfError(e) in m then m else m[KeyOfError(e) := e]
  }

  /** `i` is the position of the first record filed under `k`. */
  predicate FirstAt(errs: seq<KeywordError>, k: string, i: int) {
    0 <= i < |errs| && KeyOfError(errs[i]) == k
    && forall j :: 0 <= j < i ==> KeyOfError(errs[j]) != k
  }

  /** The index holds a key exactly when some record has it. */
  lemma {:induction false} FirstErrorsKeys(errs: seq<KeywordError>, k: string)
    ensures k in FirstErrors(errs) <==> exists i :: 0 <= i < |errs| && KeyOfError(errs[i]) == k
    decreases |errs|
  {
    if |errs| > 0 {
      var init := errs[..|errs| - 1];
      var e := errs[|errs| - 1];
      var m := FirstErrors(init);
      FirstErrorsKeys(init, k);
      assert k in FirstErrors(errs) <==> k in m || KeyOfError(e) == k;
      if exists i :: 0 <= i < |errs| && KeyOfError(errs[i]) == k {
        var i :| 0 <= i < |errs| && KeyOfError(errs[i]) == k;
        if i < |init| {
          assert KeyOfError(init[i]) == k;
        }
      }
      if k in m {
        var i :| 0 <= i < |init| && KeyOfError(init[i]) == k;
        assert errs[i] == init[i];
      }
    }
  }

  /** A key in the index holds the first record filed under it. */
  lemma {:induction false} FirstErrorsFirst(errs: seq<KeywordError>, k: string)
    requires k in FirstErrors(errs)
    ensures exists i :: FirstAt(errs, k, i) && FirstErrors(errs)[k] == errs[i]
    decreases |errs|
  {
    var init := errs[..|errs| - 1];
    var e := errs[|errs| - 1];
    var m := FirstErrors(init);
    if k in m {
      FirstErrorsFirst(init, k);
      var i :| FirstAt(init, k, i) && m[k] == init[i];
      assert FirstErrors(errs)[k] == m[k];
      forall j | 0 <= j <= i ensures errs[j] == init[j] { }
      assert FirstAt(errs, k, i);
    } else {
      FirstErrorsKeys(init, k);
      assert KeyOfError(e) == k && FirstErrors(errs)[k] == e;
      forall j | 0 <= j < |init| ensures KeyOfError(errs[j]) != k {
        assert errs[j] == init[j];
      }
      assert FirstAt(errs, k, |errs| - 1);
    }
  }

  /**
   * The index holds a key exactly when some record has it, and then it holds
   * the first such record in list order.
   */
  lemma {:induction false} FirstErrorsSpec(errs: seq<KeywordError>, k: string)
    ensures k in FirstErrors(errs) <==> exists i :: 0 <= i < |errs| && KeyOfError(errs[i]) == k
    ensures k in FirstErrors(errs) ==> exists i :: FirstAt(errs, k, i) && FirstErrors(errs)[k] == errs[i]
  {
    FirstErrorsKeys(errs, k);
    if k in FirstErrors(errs) {
      FirstErrorsFirst(errs, k);
    }
  }

  /** The first record under a key is unique. */
  lemma {:induction false} FirstAtUnique(errs: seq<KeywordError>, k: string, i: int, j: int)
    requires FirstAt(errs, k, i) && FirstAt(errs, k, j)
    ensures i == j
  {
  }

  /** `keyword_path`: present when the first record under the test's key names a keyword. */
  function KeywordPath(suite: string, test: string, index: map<string, KeywordError>): Option<string> {
    var k := ErrorKey(suite, test);
    if k in index && index[k].keyword != "" then Some(k + "." + index[k].keyword) else None
  }

  /**
   * With the index built from the failing-keyword records, a failed test gets a
   * path exactly when the first record under its key names a keyword, and the
   * path is `suite.test.keyword` for that record; later records under the same
   * key never matter.
   */
  lemma {:induction false} KeywordPathSpec(errs: seq<KeywordError>, suite: string, test: string)
    ensures KeywordPath(suite, test, FirstErrors(errs)).Some? <==>
              exists i :: FirstAt(errs, ErrorKey(suite, test), i) && errs[i].keyword != ""
    ensures forall i :: FirstAt(errs, ErrorKey(suite, test), i) && errs[i].keyword != "" ==>
              KeywordPath(suite, test, FirstErrors(errs)) == Some(suite + "." + test + "." + errs[i].keyword)
  {
    var k := ErrorKey(suite, test);
    FirstErrorsSpec(errs, k);
    forall i | FirstAt(errs, k, i)
      ensures k in FirstErrors(errs) && FirstErrors(errs)[k] == errs[i]
    {
      var i' :| FirstAt(errs, k, i') && FirstErrors(errs)[k] == errs[i'];
      FirstAtUnique(errs, k, i, i');
    }
  }

  /**
   * The key is a plain string, so a test can be matched with a failing
   * keyword of a different test: test "c" of suite "a.b" picks up the error
   * recorded for test "b.c" of suite "a".
   */
  lemma KeysCanCollide()
    ensures ErrorKey("a.b", "c") == ErrorKey("a", "b.c")
    ensures KeywordPath("a.b", "c", FirstErrors([KeywordError("Open", "b.c", "a", "boom", 0)])) == Some("a.b.c.Open")
  {
    var e := KeywordError("Open", "b.c", "a", "boom", 0);
    assert [e][..0] == [];
    assert KeyOfError(e) == "a.b.c";
    assert FirstErrors([e][..0]) == map[];
    var m := FirstErrors([e]);
    assert m == map["a.b.c" := e];
    assert ErrorKey("a.b", "c") == "a.b.c";
    assert "a.b.c" + "." + "Open" == "a.b.c.Open";
  }

  /** One entry of `failed_tests` / `failed_test_messages`. */
  datatype FailedTest = FailedTest(test: string, suite: string, message: string, keywordPath: Option<string>)

  function Brief(e: TestEntry, index: map<string, KeywordError>): FailedTest {
    FailedTest(e.test.name, e.suite, e.test.message, KeywordPath(e.suite, e.test.name, index))
  }

  /** The FAIL tests in visitor order, each with its keyword path. */
  function FailedTests(es: seq<TestEntry>, index: map<string, KeywordError>): seq<FailedTest> {
    if |es| == 0 then []
    else
      var e := es[|es| - 1];
      FailedTests(es[..|es| - 1], index) + (if IsFail(e.test.status) then [Brief(e, index)] else [])
  }

  /** The listing distributes over concatenation, so it keeps visitor order. */
  lemma {:induction false} FailedTestsAppend(a: seq<TestEntry>, b: seq<TestEntry>, index: map<string, KeywordError>)
    ensures FailedTests(a + b, index) == FailedTests(a, index) + FailedTests(b, index)
    decreases |b|
  {
    if |b| > 0 {
      var ab := a + b;
      assert ab[..|ab| - 1] == a + b[..|b| - 1];
      assert ab[|ab| - 1] == b[|b| - 1];
      FailedTestsAppend(a, b[..|b| - 1], index);
    } else {
      assert a + b == a;
    }
  }

  /** An entry appears exactly for each FAIL test. */
  lemma {:induction false} FailedTestsMembers(es: seq<TestEntry>, index: map<string, KeywordError>, f: FailedTest)
    ensures f in FailedTests(es, index) <==> exists i :: 0 <= i < |es| && IsFail(es[i].test.status) && Brief(es[i], index) == f
    decreases |es|
  {
    if |es| > 0 {
      var init := es[..|es| - 1];
      FailedTestsMembers(init, index, f);
      if exists i :: 0 <= i < |es| && IsFail(es[i].test.status) && Brief(es[i], index) == f {
        var i :| 0 <= i < |es| && IsFail(es[i].test.status) && Brief(es[i], index) == f;
        if i < |init| {
          assert init[i] == es[i];
        }
      }
      if exists i :: 0 <= i < |init| && IsFail(init[i].test.status) && Brief(init[i], index) == f {
        var i :| 0 <= i < |init| && IsFail(init[i].test.status) && Brief(init[i], index) == f;
        assert es[i] == init[i];
      }
    }
  }

  /** The statuses of the collected tests, in visitor order. */
  function Statuses(es: seq<TestEntry>): seq<string> {
    seq(|es|, i requires 0 <= i < |es| => es[i].test.status)
  }

  /** There are as many entries as tests whose status the counters file under "failed". */
  lemma {:induction false} FailedTestsCount(es: seq<TestEntry>, index: map<string, KeywordError>)
    ensures |FailedTests(es, index)| == Occurrences(Statuses(es), Failed)
    decreases |es|
  {
    if |es| > 0 {
      var init := es[..|es| - 1];
      FailedTestsCount(init, index);
      assert Statuses(es)[..|es| - 1] == Statuses(init);
      KeyOfIgnoresCase(es[|es| - 1].test.status);
    }
  }

  /**
   * The errors section walks the tests once more, skipping every test that
   * is not FAIL; it lists the same entries as the details section.
   */
  function FailedMessages(es: seq<TestEntry>, index: map<string, KeywordError>): seq<FailedTest> {
    if |es| == 0 then []
    else if !IsFail(es[0].test.status) then FailedMessages(es[1..], index)
    else [Brief(es[0], index)] + FailedMessages(es[1..], index)
  }

  /** Both sections list exactly the same failed tests, in the same order, with the same keyword paths. */
  lemma {:induction false} FailedListsAgree(es: seq<TestEntry>, index: map<string, KeywordError>)
    ensures FailedMessages(es, index) == FailedTests(es, index)
    decreases |es|
  {
    if |es| > 0 {
      FailedListsAgree(es[1..], index);
      FailedTestsAppend([es[0]], es[1..], index);
      assert [es[0]] + es[1..] == es;
      assert [es[0]][..0] == [];
    }
  }
}

=== FILE: criticality.dfy ===
/**
 * `_critical_group`: the criticality group a test is counted under.
 */
module Criticality {
  import opened Text
  import opened Model

  const CRITICAL := "critical"
  const NONCRITICAL := "noncritical"
  const UNSPECIFIED := "unspecified"

  /** Some tag of the test lower-cases to exactly `name`. */
  predicate HasLowerTag(tags: seq<string>, name: string) {
    exists i :: 0 <= i < |tags| && Lower(tags[i]) == name
  }

  /**
   * An explicit boolean flag decides on its own; without one, a tag
   * "critical" (in any case) wins over "noncritical" or "non-critical", and a
   * test with none of these is "unspecified".
   */
  function Group(t: Test): (g: string)
    ensures g in {CRITICAL, NONCRITICAL, UNSPECIFIED}
    ensures t.critical.Some? ==> (g == CRITICAL <==> t.critical.value)
    ensures t.critical.Some? ==> g != UNSPECIFIED
    ensures t.critical.None? ==> (g == CRITICAL <==> HasLowerTag(t.tags, "critical"))
    ensures t.critical.None? ==>
              (g == NONCRITICAL <==>
                 !HasLowerTag(t.tags, "critical")
                 && (HasLowerTag(t.tags, "noncritical") || HasLowerTag(t.tags, "non-critical")))
    ensures g == UNSPECIFIED <==>
              t.critical.None?
              && !HasLowerTag(t.tags, "critical")
              && !HasLowerTag(t.tags, "noncritical")
              && !HasLowerTag(t.tags, "non-critical")
  {
    match t.critical
    case Some(true) => CRITICAL
    case Some(false) => NONCRITICAL
    case None =>
      if HasLowerTag(t.tags, "critical") then CRITICAL
      else if HasLowerTag(t.tags, "noncritical") || HasLowerTag(t.tags, "non-critical") then NONCRITICAL
      else UNSPECIFIED
  }

  /** Tag matching ignores case: changing the case of any tag leaves the group unchanged. */
  lemma {:induction false} GroupIgnoresTagCase(t: Test, tags: seq<string>)
    requires |tags| == |t.tags|
    requires forall i :: 0 <= i < |tags| ==> Lower(tags[i]) == Lower(t.tags[i])
    ensures Group(t.(tags := tags)) == Group(t)
  {
    forall name: string ensures HasLowerTag(tags, name) <==> HasLowerTag(t.tags, name) {
      if HasLowerTag(tags, name) {
        var i :| 0 <= i < |tags| && Lower(tags[i]) == name;
        assert Lower(t.tags[i]) == name;
      }
      if HasLowerTag(t.tags, name) {
        var i :| 0 <= i < |t.tags| && Lower(t.tags[i]) == name;
        assert Lower(tags[i]) == name;
      }
    }
  }

  /** An explicit flag overrides any tag convention. */
  lemma {:induction false} FlagBeatsTags(t: Test, tags: seq<string>)
    requires t.critical.Some?
    ensures Group(t.(tags := tags)) == Group(t)
  {
  }
}

=== FILE: model.dfy ===
/**
 * The result tree as the aggregation sees it once Robot Framework has
 * loaded an output document: suites own child suites and tests, tests own
 * keywords, keywords own nested keywords. Everything is immutable.
 *
 * Attributes the tool reads but does not compute are plain fields here:
 * elapsed times are whole milliseconds (0 when the source has none), and
 * the statistics Robot Framework precomputes for a suite or a whole result
 * are carried as given counters.
 */
module Model {
  import opened Stats

  datatype Option<+T> = None | Some(value: T)

  /** A keyword, setup, teardown or step; `body` holds the keywords it runs. */
  datatype Keyword = Keyword(
    name: string,
    status: string,
    message: string,
    elapsed: nat,
    body: seq<Keyword>)

  /**
   * A test case. `body` is the test's setup, body and teardown keywords in
   * execution order; `critical` is the explicit criticality flag when the
   * loaded model has one (None when the attribute is absent or not a boolean).
   */
  datatype Test = Test(
    name: string,
    status: string,
    message: string,
    elapsed: nat,
    tags: seq<string>,
    critical: Option<bool>,
    body: seq<Keyword>)

  /**
   * A suite. `setup` and `teardown` hold the suite's setup and teardown
   * keyword (zero or one each); `statistics` is Robot Framework's own count
   * over the suite's subtree.
   */
  datatype Suite = Suite(
    name: string,
    longname: string,
    status: string,
    elapsed: nat,
    statistics: Counter,
    setup: seq<Keyword>,
    suites: seq<Suite>,
    tests: seq<Test>,
    teardown: seq<Keyword>)

  /** A document-level diagnostic, passed through untouched. */
  datatype ExecutionError = ExecutionError(level: string, message: string, timestamp: string, source: string)

  /** A loaded (possibly merged or combined) output document. */
  datatype ExecutionResult = ExecutionResult(suite: Suite, statistics: Counter, errors: seq<ExecutionError>)

  /** The name a suite is reported under: its long name, or its name when the long name is empty. */
  function SuiteName(s: Suite): string {
    if s.longname != "" then s.longname else s.name
  }
}

=== FILE: ranking.dfy ===
/**
 * The "slowest" rankings of the timing section: the items sorted by
 * elapsed time, largest first, and then cut to the first `limit` of them.
 * Python's sort is stable also when reversed, so items with equal keys keep
 * their original relative order; the model is an insertion sort with that
 * property, and the lemmas pin the result down independently of it.
 */
module Ranking {

  /** Keys never increase from left to right. */
  predicate Descending<T>(xs: seq<T>, key: T -> nat) {
    forall i, j :: 0 <= i < j < |xs| ==> key(xs[i]) >= key(xs[j])
  }

  /** The subsequence of items whose key is `v`, in their order. */
  function WithKey<T>(xs: seq<T>, key: T -> nat, v: nat): seq<T> {
    if |xs| == 0 then []
    else (if key(xs[0]) == v then [xs[0]] else []) + WithKey(xs[1..], key, v)
  }

  /** Places `x` in front of the first item with a key not above its own. */
  function Insert<T>(x: T, ys: seq<T>, key: T -> nat): seq<T> {
    if |ys| == 0 then [x]
    else if key(x) >= key(ys[0]) then [x] + ys
    else [ys[0]] + Insert(x, ys[1..], key)
  }

  function SortDesc<T>(xs: seq<T>, key: T -> nat): seq<T> {
    if |xs| == 0 then [] else Insert(xs[0], SortDesc(xs[1..], key), key)
  }

  /** No key in the list exceeds `b`. */
  predicate AtMost<T>(xs: seq<T>, key: T -> nat, b: nat) {
    forall i :: 0 <= i < |xs| ==> key(xs[i]) <= b
  }

  /** `[y] + zs` read back through `WithKey`. */
  lemma {:induction false} WithKeyCons<T>(y: T, zs: seq<T>, key: T -> nat, v: nat)
    ensures WithKey([y] + zs, key, v) == (if key(y) == v then [y] else []) + WithKey(zs, key, v)
  {
    assert ([y] + zs)[0] == y;
    assert ([y] + zs)[1..] == zs;
  }

  lemma {:induction false} InsertAtMost<T>(x: T, ys: seq<T>, key: T -> nat, b: nat)
    requires AtMost(ys, key, b) && key(x) <= b
    ensures AtMost(Insert(x, ys, key), key, b)
    decreases |ys|
  {
    if |ys| > 0 && key(x) < key(ys[0]) {
      var rest := Insert(x, ys[1..], key);
      assert AtMost(ys[1..], key, b) by {
        forall i | 0 <= i < |ys[1..]| ensures key(ys[1..][i]) <= b {
          assert ys[1..][i] == ys[i + 1];
        }
      }
      InsertAtMost(x, ys[1..], key, b);
      var r := [ys[0]] + rest;
      forall i | 0 <= i < |r| ensures key(r[i]) <= b {
        if i > 0 {
          assert r[i] == rest[i - 1];
        }
      }
    }
  }

  /** Inserting into a descending list keeps it descending. */
  lemma {:induction false} InsertSorted<T>(x: T, ys: seq<T>, key: T -> nat)
    requires Descending(ys, key)
    ensures Descending(Insert(x, ys, key), key)
    decreases |ys|
  {
    if |ys| > 0 {
      if key(x) >= key(ys[0]) {
        var r := [x] + ys;
        forall i, j | 0 <= i < j < |r| ensures key(r[i]) >= key(r[j]) {
          assert r[j] == ys[j - 1];
          if i > 0 {
            assert r[i] == ys[i - 1];
          }
        }
      } else {
        var rest := Insert(x, ys[1..], key);
        DescendingTail(ys, key);
        InsertSorted(x, ys[1..], key);
        assert AtMost(ys[1..], key, key(ys[0])) by {
          forall i | 0 <= i < |ys[1..]| ensures key(ys[1..][i]) <= key(ys[0]) {
            assert ys[1..][i] == ys[i + 1];
          }
        }
        InsertAtMost(x, ys[1..], key, key(ys[0]));
        var r := [ys[0]] + rest;
        forall i, j | 0 <= i < j < |r| ensures key(r[i]) >= key(r[j]) {
          assert r[j] == rest[j - 1];
          if i > 0 {
            assert r[i] == rest[i - 1];
          }
        }
      }
    }
  }

  /** Inserting adds exactly `x`. */
  lemma {:induction false} InsertMultiset<T>(x: T, ys: seq<T>, key: T -> nat)
    ensures multiset(Insert(x, ys, key)) == multiset(ys) + multiset{x}
    decreases |ys|
  {
    if |ys| > 0 && key(x) < key(ys[0]) {
      InsertMultiset(x, ys[1..], key);
      assert ys == [ys[0]] + ys[1..];
    }
  }

  /** `x` goes ahead of every item that has the same key, and no other key's items move. */
  lemma {:induction false} InsertWithKey<T>(x: T, ys: seq<T>, key: T -> nat, v: nat)
    ensures WithKey(Insert(x, ys, key), key, v) == (if key(x) == v then [x] else []) + WithKey(ys, key, v)
    decreases |ys|
  {
    if |ys| == 0 {
      WithKeyCons(x, ys, key, v);
    } else if key(x) >= key(ys[0]) {
      WithKeyCons(x, ys, key, v);
    } else {
      var rest := Insert(x, ys[1..], key);
      var w := WithKey(ys[1..], key, v);
      assert Insert(x, ys, key) == [ys[0]] + rest;
      InsertWithKey(x, ys[1..], key, v);
      WithKeyCons(ys[0], rest, key, v);
      assert [ys[0]] + ys[1..] == ys;
      WithKeyCons(ys[0], ys[1..], key, v);
      if key(x) == v {
        assert WithKey(Insert(x, ys, key), key, v) == [x] + w;
        assert WithKey(ys, key, v) == w;
      } else {
        assert WithKey(rest, key, v) == w;
      }
    }
  }

  /**
   * The sort returns a descending permutation of its input in which, for
   * every key, the items with that key appear in their input order.
   */
  lemma {:induction false} SortDescSpec<T>(xs: seq<T>, key: T -> nat)
    ensures Descending(SortDesc(xs, key), key)
    ensures multiset(SortDesc(xs, key)) == multiset(xs)
    ensures forall v :: WithKey(SortDesc(xs, key), key, v) == WithKey(xs, key, v)
    decreases |xs|
  {
    if |xs| > 0 {
      var x := xs[0];
      var tail := xs[1..];
      var sorted := SortDesc(tail, key);
      var r := SortDesc(xs, key);
      assert r == Insert(x, sorted, key);
      SortDescSpec(tail, key);
      assert xs == [x] + tail;
      assert Descending(r, key) by { InsertSorted(x, sorted, key); }
      assert multiset(r) == multiset(xs) by { InsertMultiset(x, sorted, key); }
      forall v ensures WithKey(r, key, v) == WithKey(xs, key, v) {
        InsertWithKey(x, sorted, key, v);
        WithKeyCons(x, tail, key, v);
      }
    }
  }

  /**
   * A descending list is determined by its per-key subsequences: two
   * descending lists that agree on every key are equal. So the three facts
   * of `SortDescSpec` describe the stable descending sort completely.
   */
  lemma {:induction false} DescendingUnique<T>(a: seq<T>, b: seq<T>, key: T -> nat)
    requires Descending(a, key) && Descending(b, key)
    requires forall v :: WithKey(a, key, v) == WithKey(b, key, v)
    ensures a == b
    decreases |a| + |b|
  {
    if |a| == 0 {
      if |b| > 0 {
        assert false;
      }
    } else if |b| == 0 {
      assert WithKey(b, key, key(a[0])) == [];
      assert false;
    } else {
      var ka, kb := key(a[0]), key(b[0]);
      if ka > kb {
        WithKeyBelow(b, key, ka);
        assert false;
      } else if kb > ka {
        WithKeyBelow(a, key, kb);
        assert false;
      } else {
        assert WithKey(a, key, ka)[0] == a[0];
        assert WithKey(b, key, ka)[0] == b[0];
        DescendingTail(a, key);
        DescendingTail(b, key);
        forall v ensures WithKey(a[1..], key, v) == WithKey(b[1..], key, v) {
          var wa, wb := WithKey(a, key, v), WithKey(b, key, v);
          assert wa == wb;
          if v == ka {
            assert wa == [a[0]] + WithKey(a[1..], key, v);
            assert wb == [b[0]] + WithKey(b[1..], key, v);
            assert WithKey(a[1..], key, v) == wa[1..];
            assert WithKey(b[1..], key, v) == wb[1..];
          } else {
            assert wa == WithKey(a[1..], key, v);
            assert wb == WithKey(b[1..], key, v);
          }
        }
        DescendingUnique(a[1..], b[1..], key);
        assert a == [a[0]] + a[1..];
        assert b == [b[0]] + b[1..];
      }
    }
  }

  lemma {:induction false} DescendingTail<T>(xs: seq<T>, key: T -> nat)
    requires Descending(xs, key) && |xs| > 0
    ensures Descending(xs[1..], key)
  {
    forall i, j | 0 <= i < j < |xs[1..]| ensures key(xs[1..][i]) >= key(xs[1..][j]) {
      assert xs[1..][i] == xs[i + 1] && xs[1..][j] == xs[j + 1];
    }
  }

  /** In a descending list whose first key is below `v`, no item has key `v`. */
  lemma {:induction false} WithKeyBelow<T>(xs: seq<T>, key: T -> nat, v: nat)
    requires Descending(xs, key) && |xs| > 0 && key(xs[0]) < v
    ensures WithKey(xs, key, v) == []
    decreases |xs|
  {
    if |xs| > 1 {
      DescendingTail(xs, key);
      assert xs[1..][0] == xs[1];
      WithKeyBelow(xs[1..], key, v);
    }
  }

  /** The `limit` slowest items (all of them when there are fewer), slowest first. */
  function Slowest<T>(xs: seq<T>, key: T -> nat, limit: nat): seq<T> {
    var s := SortDesc(xs, key);
    if limit < |s| then s[..limit] else s
  }

  lemma {:induction false} SortDescLength<T>(xs: seq<T>, key: T -> nat)
    ensures |SortDesc(xs, key)| == |xs|
    decreases |xs|
  {
    if |xs| > 0 {
      SortDescLength(xs[1..], key);
      InsertLength(xs[0], SortDesc(xs[1..], key), key);
    }
  }

  lemma {:induction false} InsertLength<T>(x: T, ys: seq<T>, key: T -> nat)
    ensures |Insert(x, ys, key)| == |ys| + 1
    decreases |ys|
  {
    if |ys| > 0 && key(x) < key(ys[0]) {
      InsertLength(x, ys[1..], key);
    }
  }

  /** In a descending list, nothing after the first `n` items is above any of them. */
  lemma {:induction false} PrefixDominates<T>(s: seq<T>, key: T -> nat, n: nat)
    requires Descending(s, key) && n <= |s|
    ensures forall y, i :: y in multiset(s[n..]) && 0 <= i < n ==> key(s[i]) >= key(y)
  {
    forall y, i | y in multiset(s[n..]) && 0 <= i < n ensures key(s[i]) >= key(y) {
      var j :| 0 <= j < |s[n..]| && s[n..][j] == y;
      assert s[n + j] == y;
    }
  }

  lemma {:induction false} PrefixDescending<T>(s: seq<T>, key: T -> nat, n: nat)
    requires Descending(s, key) && n <= |s|
    ensures Descending(s[..n], key)
  {
    forall i, j | 0 <= i < j < n ensures key(s[..n][i]) >= key(s[..n][j]) {
      assert s[..n][i] == s[i] && s[..n][j] == s[j];
    }
  }

  /**
   * The ranking has `min(n, limit)` items, is descending, is a prefix of the
   * full stable ranking, and no item left out is slower than any item kept.
   */
  lemma {:induction false} SlowestSpec<T>(xs: seq<T>, key: T -> nat, limit: nat)
    ensures |Slowest(xs, key, limit)| == if limit < |xs| then limit else |xs|
    ensures Descending(Slowest(xs, key, limit), key)
    ensures Slowest(xs, key, limit) <= SortDesc(xs, key)
    ensures multiset(Slowest(xs, key, limit)) <= multiset(xs)
    ensures forall y, i :: y in multiset(xs) - multiset(Slowest(xs, key, limit)) && 0 <= i < |Slowest(xs, key, limit)|
              ==> key(Slowest(xs, key, limit)[i]) >= key(y)
  {
    var s := SortDesc(xs, key);
    SortDescPermutes(xs, key);
    var n := if limit < |s| then limit else |s|;
    var r := Slowest(xs, key, limit);
    assert r == s[..n];
    PrefixDescending(s, key, n);
    PrefixDominates(s, key, n);
    assert s == r + s[n..];
    assert multiset(s) == multiset(r) + multiset(s[n..]);
    forall y, i | y in multiset(xs) - multiset(r) && 0 <= i < |r| ensures key(r[i]) >= key(y) {
      assert y in multiset(s[n..]);
      assert r[i] == s[i];
    }
  }

  /**
   * `r` is what a top-`limit` ranking of `xs` must be: `min(n, limit)` items,
   * descending, a prefix of the stable descending sort, drawn from `xs`, and
   * no item of `xs` left out is slower than an item kept.
   */
  predicate TopOf<T(==)>(r: seq<T>, xs: seq<T>, key: T -> nat, limit: nat) {
    && |r| == (if limit < |xs| then limit else |xs|)
    && Descending(r, key)
    && r <= SortDesc(xs, key)
    && multiset(r) <= multiset(xs)
    && forall y, i :: y in multiset(xs) - multiset(r) && 0 <= i < |r| ==> key(r[i]) >= key(y)
  }

  lemma {:induction false} SlowestIsTop<T>(xs: seq<T>, key: T -> nat, limit: nat)
    ensures TopOf(Slowest(xs, key, limit), xs, key, limit)
  {
    SlowestSpec(xs, key, limit);
  }

  /** The part of `SortDescSpec` the ranking needs, with the length. */
  lemma {:induction false} SortDescPermutes<T>(xs: seq<T>, key: T -> nat)
    ensures |SortDesc(xs, key)| == |xs|
    ensures Descending(SortDesc(xs, key), key)
    ensures multiset(SortDesc(xs, key)) == multiset(xs)
  {
    SortDescSpec(xs, key);
    SortDescLength(xs, key);
  }
}

=== FILE: report.dfy ===
/**
 * `build_output`: the report assembled from a loaded result and a visitor
 * that has walked it. `meta` is always there; each of the four sections is
 * there exactly when its name was requested. The dictionary keys of the
 * emitted JSON become datatype fields; an absent key is `None`.
 */
module Report {
  import opened Stats
  import opened Model
  import opened Collect
  import opened Tally
  import opened Criticality
  import opened Breakdown
  import opened Correlate
  import opened Ranking

  datatype Meta = Meta(outputs: seq<string>, merged: bool)

  /** `totals` comes from the result's own statistics; the counts from the visitor. */
  datatype Summary = Summary(totals: Counter, suiteCount: nat, testCount: nat, overallStatus: string)

  datatype TestBrief = TestBrief(name: string, status: string, elapsedMs: nat)

  datatype SuiteDetail = SuiteDetail(name: string, status: string, totals: Counter, tests: seq<TestBrief>)

  datatype Details = Details(suites: seq<SuiteDetail>, failedTests: seq<FailedTest>, tags: seq<Entry>, criticality: seq<Entry>)

  datatype Errors = Errors(executionErrors: seq<ExecutionError>, failedTestMessages: seq<FailedTest>, keywordErrors: seq<KeywordError>)

  datatype TestTiming = TestTiming(name: string, suite: string, elapsedMs: nat)

  datatype KeywordTiming = KeywordTiming(name: string, suite: string, test: string, elapsedMs: nat)

  /** `slowestKeywords` is the optional `slowest_keywords` key. */
  datatype Timing = Timing(totalElapsedMs: nat, slowestTests: seq<TestTiming>, slowestKeywords: Option<seq<KeywordTiming>>)

  datatype Report = Report(meta: Meta, summary: Option<Summary>, details: Option<Details>,
                           errors: Option<Errors>, timing: Option<Timing>)

  function SummaryOf(result: ExecutionResult, v: Visitor): Summary {
    Summary(result.statistics, |v.suites|, |v.tests|, result.suite.status)
  }

  function BriefOf(t: Test): TestBrief {
    TestBrief(t.name, t.status, t.elapsed)
  }

  /** One `suites` entry: a suite with direct tests, its given statistics and its own tests in order. */
  function SuiteDetailOf(s: Suite): SuiteDetail {
    SuiteDetail(SuiteName(s), s.status, s.statistics,
                seq(|s.tests|, i requires 0 <= i < |s.tests| => BriefOf(s.tests[i])))
  }

  function DetailsOf(v: Visitor, index: map<string, KeywordError>): Details {
    Details(seq(|v.suites|, i requires 0 <= i < |v.suites| => SuiteDetailOf(v.suites[i])),
            FailedTests(v.tests, index), TagTally(v.tests), CriticalityTally(v.tests))
  }

  function ErrorsOf(result: ExecutionResult, v: Visitor, index: map<string, KeywordError>): Errors {
    Errors(result.errors, FailedMessages(v.tests, index), v.keywordErrors)
  }

  function TestElapsed(t: TestTiming): nat {
    t.elapsedMs
  }

  function KeywordElapsed(k: KeywordTiming): nat {
    k.elapsedMs
  }

  function TestTimings(es: seq<TestEntry>): seq<TestTiming> {
    seq(|es|, i requires 0 <= i < |es| => TestTiming(es[i].test.name, es[i].suite, es[i].test.elapsed))
  }

  function KeywordTimings(ks: seq<KeywordEntry>): seq<KeywordTiming> {
    seq(|ks|, i requires 0 <= i < |ks| => KeywordTiming(ks[i].keyword.name, ks[i].suite, ks[i].test, ks[i].keyword.elapsed))
  }

  function TimingOf(result: ExecutionResult, v: Visitor, includeKeywordTiming: bool, maxTests: nat, maxKeywords: nat): Timing {
    Timing(result.suite.elapsed,
           Slowest(TestTimings(v.tests), TestElapsed, maxTests),
           if includeKeywordTiming then Some(Slowest(KeywordTimings(v.keywords), KeywordElapsed, maxKeywords)) else None)
  }

  /**
   * `meta` always; `summary`, `details`, `errors` and `timing` each exactly
   * when requested (unknown names in `sections` are ignored); and inside
   * `timing`, the keyword ranking exactly when keyword timing was asked for.
   */
  function BuildOutput(result: ExecutionResult, v: Visitor, sections: seq<string>, includeKeywordTiming: bool,
                       maxTests: nat, maxKeywords: nat, outputs: seq<string>, merged: bool): (r: Report)
    ensures r.meta == Meta(outputs, merged)
    ensures r.summary.Some? <==> "summary" in sections
    ensures r.details.Some? <==> "details" in sections
    ensures r.errors.Some? <==> "errors" in sections
    ensures r.timing.Some? <==> "timing" in sections
    ensures r.timing.Some? ==> (r.timing.value.slowestKeywords.Some? <==> includeKeywordTiming)
  {
    var index := FirstErrors(v.keywordErrors);
    Report(Meta(outputs, merged),
           if "summary" in sections then Some(SummaryOf(result, v)) else None,
           if "details" in sections then Some(DetailsOf(v, index)) else None,
           if "errors" in sections then Some(ErrorsOf(result, v, index)) else None,
           if "timing" in sections then Some(TimingOf(result, v, includeKeywordTiming, maxTests, maxKeywords)) else None)
  }

  /**
   * The details and errors sections, when both present, list the same
   * failed tests; each listing has one entry per test the counters call
   * failed, and each keyword path follows the first failing keyword filed
   * under the test's key.
   */
  lemma {:induction false} FailedSectionsAgree(result: ExecutionResult, v: Visitor, sections: seq<string>, includeKeywordTiming: bool,
                            maxTests: nat, maxKeywords: nat, outputs: seq<string>, merged: bool)
    requires "details" in sections && "errors" in sections
    ensures var r := BuildOutput(result, v, sections, includeKeywordTiming, maxTests, maxKeywords, outputs, merged);
            && r.details.value.failedTests == r.errors.value.failedTestMessages
            && |r.details.value.failedTests| == Occurrences(Statuses(v.tests), Failed)
            && forall i :: 0 <= i < |r.details.value.failedTests| ==>
                 r.details.value.failedTests[i].keywordPath
                 == KeywordPath(r.details.value.failedTests[i].suite, r.details.value.failedTests[i].test,
                                FirstErrors(v.keywordErrors))
  {
    var index := FirstErrors(v.keywordErrors);
    FailedListsAgree(v.tests, index);
    FailedTestsCount(v.tests, index);
    var fs := FailedTests(v.tests, index);
    forall i | 0 <= i < |fs| ensures fs[i].keywordPath == KeywordPath(fs[i].suite, fs[i].test, index) {
      FailedTestsMembers(v.tests, index, fs[i]);
    }
  }

  /**
   * The tag and criticality lists are sorted by key, keep the counter
   * invariant, and add up to the number of tag occurrences and the number of
   * tests; the criticality list names only groups some test is in.
   */
  lemma {:induction false} DetailsCounters(result: ExecutionResult, v: Visitor, sections: seq<string>, includeKeywordTiming: bool,
                        maxTests: nat, maxKeywords: nat, outputs: seq<string>, merged: bool)
    requires "details" in sections
    ensures var d := BuildOutput(result, v, sections, includeKeywordTiming, maxTests, maxKeywords, outputs, merged).details.value;
            && Sorted(d.tags) && AllValid(d.tags) && SumTotals(d.tags) == LabelCount(v.tests, TagsOf)
            && Sorted(d.criticality) && AllValid(d.criticality) && SumTotals(d.criticality) == |v.tests|
            && (forall g :: g in Keys(d.criticality) <==> exists i :: 0 <= i < |v.tests| && Group(v.tests[i].test) == g)
  {
    TallyBySpec(v.tests, TagsOf);
    CriticalityCounts(v.tests);
  }

  /**
   * The test ranking has `min(n, maxTests)` entries, slowest first; among
   * equally slow tests the visitor's order is kept; no test left out is
   * slower than one kept. With keyword timing on, the keyword ranking has
   * `min(n, maxKeywords)` entries and is likewise the head of the stable
   * descending sort, with no keyword left out slower than one kept.
   */
  lemma {:induction false} TimingRanks(result: ExecutionResult, v: Visitor, sections: seq<string>, includeKeywordTiming: bool,
                    maxTests: nat, maxKeywords: nat, outputs: seq<string>, merged: bool)
    requires "timing" in sections
    ensures var t := BuildOutput(result, v, sections, includeKeywordTiming, maxTests, maxKeywords, outputs, merged).timing.value;
            && |t.slowestTests| == (if maxTests < |v.tests| then maxTests else |v.tests|)
            && Descending(t.slowestTests, TestElapsed)
            && t.slowestTests <= SortDesc(TestTimings(v.tests), TestElapsed)
            && (forall ms :: WithKey(SortDesc(TestTimings(v.tests), TestElapsed), TestElapsed, ms)
                          == WithKey(TestTimings(v.tests), TestElapsed, ms))
            && (forall y, i :: y in multiset(TestTimings(v.tests)) - multiset(t.slowestTests) && 0 <= i < |t.slowestTests|
                  ==> t.slowestTests[i].elapsedMs >= y.elapsedMs)
            && (includeKeywordTiming ==>
                  TopOf(t.slowestKeywords.value, KeywordTimings(v.keywords), KeywordElapsed, maxKeywords))
  {
    SlowestSpec(TestTimings(v.tests), TestElapsed, maxTests);
    SortDescSpec(TestTimings(v.tests), TestElapsed);
    SlowestIsTop(KeywordTimings(v.keywords), KeywordElapsed, maxKeywords);
  }

  /**
   * For a visitor that has walked the result's own suite with keyword
   * detail on exactly when keyword timing is requested, and whichever
   * sections are requested: a summary counts the suites with direct tests
   * and every test of the tree; a keyword ranking is drawn from every
   * keyword of the tree; and an errors section carries every failing
   * keyword, the same whichever flag was used.
   */
  lemma {:induction false} DocumentReport(result: ExecutionResult, sections: seq<string>, includeKeywordTiming: bool,
                       maxTests: nat, maxKeywords: nat, outputs: seq<string>, merged: bool)
    ensures var v := Walk(result.suite, includeKeywordTiming);
            var h := SuiteHarvest(result.suite, "");
            var r := BuildOutput(result, v, sections, includeKeywordTiming, maxTests, maxKeywords, outputs, merged);
            && (r.summary.Some? ==> r.summary.value.suiteCount == |h.suites| && r.summary.value.testCount == |h.tests|)
            && (r.errors.Some? ==> r.errors.value.keywordErrors == Failures(h.keywords))
            && (r.timing.Some? && r.timing.value.slowestKeywords.Some? ==>
                  multiset(r.timing.value.slowestKeywords.value) <= multiset(KeywordTimings(h.keywords)))
  {
    var v := Walk(result.suite, includeKeywordTiming);
    WalkCollects(result.suite, includeKeywordTiming);
    SlowestSpec(KeywordTimings(v.keywords), KeywordElapsed, maxKeywords);
  }
}

=== FILE: sections.dfy ===
/**
 * `_parse_sections`: the comma-separated `--sections` value turned into the
 * list of report sections to build.
 */
module Sections {
  import opened Text

  const ALL_SECTIONS: seq<string> := ["summary", "details", "errors", "timing"]

  /** A list entry as parsing leaves it: non-empty, stripped, lower-case, comma-free. */
  predicate Clean(x: string) {
    x != "" && Trimmed(x) && NoUpper(x) && ',' !in x
  }

  lemma AllSectionsClean()
    ensures |ALL_SECTIONS| == 4
    ensures "all" !in ALL_SECTIONS
    ensures forall i :: 0 <= i < |ALL_SECTIONS| ==> Clean(ALL_SECTIONS[i])
  {
    assert Clean("summary");
    assert Clean("details");
    assert Clean("errors");
    assert Clean("timing");
  }

  /** Each part stripped and lower-cased, in order, with the parts that strip to nothing dropped. */
  function CleanItems(parts: seq<string>): (r: seq<string>)
    ensures |r| <= |parts|
  {
    if |parts| == 0 then []
    else
      var rest := CleanItems(parts[1..]);
      var item := Strip(parts[0]);
      if item != "" then [Lower(item)] + rest else rest
  }

  /** No item survives exactly when every part strips to nothing. */
  lemma {:induction false} CleanItemsEmpty(parts: seq<string>)
    ensures CleanItems(parts) == [] <==> forall i :: 0 <= i < |parts| ==> Strip(parts[i]) == ""
    decreases |parts|
  {
    if |parts| > 0 {
      CleanItemsEmpty(parts[1..]);
      assert forall i :: 0 <= i < |parts[1..]| ==> parts[1..][i] == parts[i + 1];
      if Strip(parts[0]) == "" && CleanItems(parts[1..]) == [] {
        forall i | 0 <= i < |parts| ensures Strip(parts[i]) == "" {
          if i > 0 {
            assert parts[i] == parts[1..][i - 1];
          }
        }
      }
    }
  }

  lemma {:induction false} CleanItem(p: string)
    requires ',' !in p
    requires Strip(p) != ""
    ensures Clean(Lower(Strip(p)))
  {
    var item := Strip(p);
    var x := Lower(item);
    LowerHasNoUpper(item);
    LowerKeepsTrimmed(item);
    StripKeepsAbsent(p, ',');
    forall i | 0 <= i < |x| ensures x[i] != ',' {
      assert item[i] != ',';
    }
  }

  lemma {:induction false} ConsClean(x: string, rest: seq<string>)
    requires Clean(x)
    requires forall i :: 0 <= i < |rest| ==> Clean(rest[i])
    ensures forall i :: 0 <= i < |[x] + rest| ==> Clean(([x] + rest)[i])
  {
    forall i | 0 <= i < |[x] + rest| ensures Clean(([x] + rest)[i]) {
      if i > 0 {
        assert ([x] + rest)[i] == rest[i - 1];
      }
    }
  }

  lemma {:induction false} CleanItemsAreClean(parts: seq<string>)
    requires forall i :: 0 <= i < |parts| ==> ',' !in parts[i]
    ensures forall i :: 0 <= i < |CleanItems(parts)| ==> Clean(CleanItems(parts)[i])
    decreases |parts|
  {
    if |parts| > 0 {
      var rest := CleanItems(parts[1..]);
      assert forall i :: 0 <= i < |parts[1..]| ==> parts[1..][i] == parts[i + 1];
      CleanItemsAreClean(parts[1..]);
      if Strip(parts[0]) != "" {
        CleanItem(parts[0]);
        ConsClean(Lower(Strip(parts[0])), rest);
      }
    }
  }

  /** A clean item is its own strip and its own lower-casing. */
  lemma {:induction false} CleanFixed(x: string)
    requires Clean(x)
    ensures Strip(x) == x && Lower(x) == x
  {
    StripTrimmed(x);
    NoUpperIsLower(x);
  }

  /** Items that are already clean pass through unchanged and in order. */
  lemma {:induction false} CleanItemsKeepsClean(names: seq<string>)
    requires forall i :: 0 <= i < |names| ==> Clean(names[i])
    ensures CleanItems(names) == names
    decreases |names|
  {
    if |names| > 0 {
      var rest := names[1..];
      assert forall i :: 0 <= i < |rest| ==> Clean(rest[i]) by {
        forall i | 0 <= i < |rest| ensures Clean(rest[i]) {
          assert rest[i] == names[i + 1];
        }
      }
      CleanItemsKeepsClean(rest);
      CleanFixed(names[0]);
      assert CleanItems(names) == [names[0]] + CleanItems(rest);
      assert [names[0]] + rest == names;
    }
  }

  /** `_parse_sections`. */
  function Parse(raw: string): seq<string> {
    var items := CleanItems(Split(raw, ','));
    if |items| == 0 then []
    else if "all" in items then ALL_SECTIONS
    else items
  }

  /**
   * Blank input yields no sections; any item reading "all" (after strip and
   * lower-casing) yields exactly the four known sections; otherwise the
   * stripped, lower-cased, non-blank items in input order, unknown names
   * included. Every name returned is clean, and "all" itself never is.
   */
  lemma {:induction false} ParseSpec(raw: string)
    ensures Parse(raw) == [] <==> forall i :: 0 <= i < |Split(raw, ',')| ==> Strip(Split(raw, ',')[i]) == ""
    ensures "all" in CleanItems(Split(raw, ',')) ==> Parse(raw) == ALL_SECTIONS
    ensures "all" !in CleanItems(Split(raw, ',')) ==> Parse(raw) == CleanItems(Split(raw, ','))
    ensures forall i :: 0 <= i < |Parse(raw)| ==> Clean(Parse(raw)[i])
    ensures "all" !in Parse(raw)
  {
    var parts := Split(raw, ',');
    SplitSpec(raw, ',');
    CleanItemsEmpty(parts);
    CleanItemsAreClean(parts);
    AllSectionsClean();
  }

  /**
   * Joining a non-empty list of clean section names with commas and parsing
   * gives the names back (the empty list joins to "", which `ParseBlank`
   * covers).
   */
  lemma {:induction false} ParseJoin(names: seq<string>)
    requires |names| > 0
    requires forall i :: 0 <= i < |names| ==> Clean(names[i])
    requires "all" !in names
    ensures Parse(Join(names, ',')) == names
  {
    var raw := Join(names, ',');
    SplitJoinClean(names);
    CleanItemsKeepsClean(names);
    ParseItems(raw, names);
  }

  /** Clean names carry no comma, so splitting their join recovers them. */
  lemma {:induction false} SplitJoinClean(names: seq<string>)
    requires |names| > 0
    requires forall i :: 0 <= i < |names| ==> Clean(names[i])
    ensures Split(Join(names, ','), ',') == names
  {
    assert forall i :: 0 <= i < |names| ==> ',' !in names[i];
    SplitJoin(names, ',');
  }

  /** A blank value selects no section. */
  lemma ParseBlank()
    ensures Parse("") == []
  {
    assert Split("", ',') == [""];
    assert Strip("") == "";
  }

  lemma {:induction false} ParseItems(raw: string, items: seq<string>)
    requires CleanItems(Split(raw, ',')) == items
    requires items != [] && "all" !in items
    ensures Parse(raw) == items
  {
  }

  /** Parsing is idempotent: re-parsing the comma-joined result changes nothing. */
  lemma {:induction false} ParseIdempotent(raw: string)
    ensures Parse(Join(Parse(raw), ',')) == Parse(raw)
  {
    ParseSpec(raw);
    if Parse(raw) == [] {
      assert Join(Parse(raw), ',') == "";
      ParseBlank();
    } else {
      ParseJoin(Parse(raw));
    }
  }
}

=== FILE: stats.dfy ===
/**
 * The pass/fail/skip counter record and the status classification that
 * feeds it (`_status_key`, `_new_stats`, `_update_stats`).
 */
module Stats {
  import opened Text

  /** Which counter a status string increments. */
  datatype StatusKey = Passed | Failed | Skipped

  datatype Counter = Counter(passed: nat, failed: nat, skipped: nat, total: nat)

  /** The invariant every counter this program builds keeps. */
  predicate Valid(c: Counter) {
    c.total == c.passed + c.failed + c.skipped
  }

  /**
   * Case-insensitive: "PASS" counts as passed, "FAIL" as failed, and every
   * other string (the empty one and "SKIP" and "NOT RUN" included) as skipped.
   */
  function KeyOf(status: string): (k: StatusKey) {
    var s := Upper(status);
    if s == "PASS" then Passed
    else if s == "FAIL" then Failed
    else Skipped
  }

  /** The failure test used for tests and keywords alike: the status is "FAIL" in any letter case. */
  predicate IsFail(status: string) {
    Upper(status) == "FAIL"
  }

  lemma {:induction false} KeyOfIgnoresCase(status: string)
    ensures KeyOf(Lower(status)) == KeyOf(status)
    ensures KeyOf(Upper(status)) == KeyOf(status)
    ensures IsFail(status) <==> KeyOf(status) == Failed
  {
    UpperIgnoresCase(status);
  }

  /** The fresh counter: everything zero. */
  function NewStats(): Counter {
    Counter(0, 0, 0, 0)
  }

  /** Counts one more item with the given status. */
  function Update(c: Counter, status: string): (r: Counter)
    ensures Valid(c) ==> Valid(r)
    ensures r.total == c.total + 1
    ensures r.passed == c.passed + (if KeyOf(status) == Passed then 1 else 0)
    ensures r.failed == c.failed + (if KeyOf(status) == Failed then 1 else 0)
    ensures r.skipped == c.skipped + (if KeyOf(status) == Skipped then 1 else 0)
  {
    match KeyOf(status)
    case Passed => c.(total := c.total + 1, passed := c.passed + 1)
    case Failed => c.(total := c.total + 1, failed := c.failed + 1)
    case Skipped => c.(total := c.total + 1, skipped := c.skipped + 1)
  }

  /** The number of statuses in `sts` that classify as `k`. */
  function Occurrences(sts: seq<string>, k: StatusKey): nat {
    if |sts| == 0 then 0
    else Occurrences(sts[..|sts| - 1], k) + (if KeyOf(sts[|sts| - 1]) == k then 1 else 0)
  }

  /** The counter `_new_stats` followed by one `_update_stats` per status, in order. */
  function Count(sts: seq<string>): Counter {
    if |sts| == 0 then NewStats()
    else Update(Count(sts[..|sts| - 1]), sts[|sts| - 1])
  }

  /**
   * Starting from the fresh counter, every update keeps the invariant, and the
   * counters end up holding how many statuses fell in each class.
   */
  lemma {:induction false} CountIsTally(sts: seq<string>)
    ensures Valid(Count(sts))
    ensures Count(sts) == Counter(Occurrences(sts, Passed), Occurrences(sts, Failed),
                                  Occurrences(sts, Skipped), |sts|)
    decreases |sts|
  {
    if |sts| > 0 {
      var init := sts[..|sts| - 1];
      var c := Count(init);
      var r := Update(c, sts[|sts| - 1]);
      CountIsTally(init);
    }
  }
}

=== FILE: tally.dfy ===
/**
 * A dictionary from string keys to counters, kept in the form the report
 * finally emits it: a list of entries strictly ascending by key. `Get` is
 * dictionary lookup; `Bump` inserts a fresh counter when the key is missing
 * and then counts one more status under the key.
 */
module Tally {
  import opened Text
  import opened Stats
  import opened Model

  datatype Entry = Entry(key: string, counter: Counter)

  /** Strictly ascending keys, hence no key twice. */
  predicate Sorted(t: seq<Entry>) {
    forall i, j :: 0 <= i < j < |t| ==> StrLess(t[i].key, t[j].key)
  }

  function Keys(t: seq<Entry>): set<string> {
    set i | 0 <= i < |t| :: t[i].key
  }

  predicate AllValid(t: seq<Entry>) {
    forall i :: 0 <= i < |t| ==> Valid(t[i].counter)
  }

  /** The sum of the `total` fields. */
  function SumTotals(t: seq<Entry>): nat {
    if |t| == 0 then 0 else t[0].counter.total + SumTotals(t[1..])
  }

  function Get(t: seq<Entry>, k: string): Option<Counter> {
    if |t| == 0 then None
    else if t[0].key == k then Some(t[0].counter)
    else Get(t[1..], k)
  }

  /** The counter stored under `k`, or the fresh one `setdefault` would insert. */
  function GetOr(t: seq<Entry>, k: string): Counter {
    match Get(t, k)
    case Some(c) => c
    case None => NewStats()
  }

  function Bump(t: seq<Entry>, k: string, status: string): seq<Entry>
    decreases |t|
  {
    if |t| == 0 then [Entry(k, Update(NewStats(), status))]
    else if t[0].key == k then [Entry(k, Update(t[0].counter, status))] + t[1..]
    else if StrLess(k, t[0].key) then [Entry(k, Update(NewStats(), status))] + t
    else [t[0]] + Bump(t[1..], k, status)
  }

  lemma {:induction false} GetPresent(t: seq<Entry>, k: string)
    ensures Get(t, k).Some? <==> k in Keys(t)
    decreases |t|
  {
    if |t| > 0 {
      GetPresent(t[1..], k);
      assert Keys(t) == {t[0].key} + Keys(t[1..]) by {
        forall x | x in Keys(t) ensures x in {t[0].key} + Keys(t[1..]) {
          var i :| 0 <= i < |t| && t[i].key == x;
          if i > 0 { assert t[1..][i - 1].key == x; }
        }
      }
    }
  }

  /** In a sorted table a key below the first key is absent. */
  lemma {:induction false} BelowHeadAbsent(t: seq<Entry>, k: string)
    requires Sorted(t) && |t| > 0
    requires StrLess(k, t[0].key)
    ensures Get(t, k) == None
  {
    GetPresent(t, k);
    if k in Keys(t) {
      var i :| 0 <= i < |t| && t[i].key == k;
      if i == 0 {
        StrLessIrreflexive(k);
      } else {
        StrLessAsymmetric(k, t[0].key);
      }
    }
  }

  lemma {:induction false} SortedTail(t: seq<Entry>)
    requires Sorted(t) && |t| > 0
    ensures Sorted(t[1..])
  {
  }

  /** Every key of the table lies strictly above `b`. */
  predicate Above(t: seq<Entry>, b: string) {
    forall i :: 0 <= i < |t| ==> StrLess(b, t[i].key)
  }

  lemma {:induction false} BumpAbove(t: seq<Entry>, k: string, status: string, b: string)
    requires Above(t, b) && StrLess(b, k)
    ensures Above(Bump(t, k, status), b)
    decreases |t|
  {
    var r := Bump(t, k, status);
    if |t| > 0 && t[0].key != k && !StrLess(k, t[0].key) {
      BumpAbove(t[1..], k, status, b);
      assert r[1..] == Bump(t[1..], k, status);
    }
  }

  lemma {:induction false} AboveCons(e: Entry, t: seq<Entry>, b: string)
    ensures Above([e] + t, b) <==> StrLess(b, e.key) && Above(t, b)
  {
    var r := [e] + t;
    if StrLess(b, e.key) && Above(t, b) {
      forall i | 0 <= i < |r| ensures StrLess(b, r[i].key) {
        if i > 0 { assert r[i] == t[i - 1]; }
      }
    }
    if Above(r, b) {
      assert r[0] == e;
      forall i | 0 <= i < |t| ensures StrLess(b, t[i].key) {
        assert r[i + 1] == t[i];
      }
    }
  }

  /** A table above `b` is above every key below `b`. */
  lemma {:induction false} AboveLower(t: seq<Entry>, a: string, b: string)
    requires StrLess(a, b) && Above(t, b)
    ensures Above(t, a)
  {
    forall i | 0 <= i < |t| ensures StrLess(a, t[i].key) {
      StrLessTransitive(a, b, t[i].key);
    }
  }

  /** A table is sorted exactly when its head lies below its sorted rest. */
  lemma {:induction false} SortedCons(e: Entry, t: seq<Entry>)
    ensures Sorted([e] + t) <==> Above(t, e.key) && Sorted(t)
  {
    var r := [e] + t;
    if Above(t, e.key) && Sorted(t) {
      forall i, j | 0 <= i < j < |r| ensures StrLess(r[i].key, r[j].key) {
        assert r[j] == t[j - 1];
        if i > 0 { assert r[i] == t[i - 1]; }
      }
    }
    if Sorted(r) {
      forall i | 0 <= i < |t| ensures StrLess(e.key, t[i].key) {
        assert r[0] == e && r[i + 1] == t[i];
      }
      forall i, j | 0 <= i < j < |t| ensures StrLess(t[i].key, t[j].key) {
        assert r[i + 1] == t[i] && r[j + 1] == t[j];
      }
    }
  }

  lemma {:induction false} BumpSorted(t: seq<Entry>, k: string, status: string)
    requires Sorted(t)
    ensures Sorted(Bump(t, k, status))
    decreases |t|
  {
    if |t| == 0 {
      SortedCons(Entry(k, Update(NewStats(), status)), []);
      assert [Entry(k, Update(NewStats(), status))] + [] == Bump(t, k, status);
    } else {
      var head := t[0];
      var tail := t[1..];
      assert t == [head] + tail;
      SortedCons(head, tail);
      if head.key == k {
        SortedCons(Entry(k, Update(head.counter, status)), tail);
      } else if StrLess(k, head.key) {
        AboveLower(tail, k, head.key);
        AboveCons(head, tail, k);
        SortedCons(Entry(k, Update(NewStats(), status)), t);
      } else {
        StrLessTotal(k, head.key);
        BumpSorted(tail, k, status);
        BumpAbove(tail, k, status, head.key);
        SortedCons(head, Bump(tail, k, status));
      }
    }
  }

  lemma {:induction false} BumpGet(t: seq<Entry>, k: string, status: string)
    requires Sorted(t)
    ensures Get(Bump(t, k, status), k) == Some(Update(GetOr(t, k), status))
    ensures forall j :: j != k ==> Get(Bump(t, k, status), j) == Get(t, j)
    decreases |t|
  {
    var r := Bump(t, k, status);
    if |t| == 0 {
    } else if t[0].key == k {
      assert r[1..] == t[1..];
    } else if StrLess(k, t[0].key) {
      assert r[1..] == t;
      BelowHeadAbsent(t, k);
    } else {
      SortedTail(t);
      BumpGet(t[1..], k, status);
      assert r[1..] == Bump(t[1..], k, status);
    }
  }

  /** Bumping counts exactly one more item in the table as a whole. */
  lemma {:induction false} BumpTotals(t: seq<Entry>, k: string, status: string)
    ensures SumTotals(Bump(t, k, status)) == SumTotals(t) + 1
    decreases |t|
  {
    var r := Bump(t, k, status);
    assert |r| > 0;
    if |t| == 0 {
      assert r[1..] == [];
    } else if t[0].key == k {
      assert r[0].counter == Update(t[0].counter, status);
      assert r[1..] == t[1..];
    } else if StrLess(k, t[0].key) {
      assert r[0].counter == Update(NewStats(), status);
      assert r[1..] == t;
    } else {
      var rest := Bump(t[1..], k, status);
      BumpTotals(t[1..], k, status);
      assert r[0] == t[0];
      assert r[1..] == rest;
    }
  }

  lemma {:induction false} AllValidCons(e: Entry, t: seq<Entry>)
    ensures AllValid([e] + t) <==> Valid(e.counter) && AllValid(t)
  {
    var r := [e] + t;
    if Valid(e.counter) && AllValid(t) {
      forall i | 0 <= i < |r| ensures Valid(r[i].counter) {
        if i > 0 { assert r[i] == t[i - 1]; }
      }
    }
    if AllValid(r) {
      assert r[0] == e;
      forall i | 0 <= i < |t| ensures Valid(t[i].counter) {
        assert r[i + 1] == t[i];
      }
    }
  }

  /** Bumping keeps every counter's invariant. */
  lemma {:induction false} BumpValid(t: seq<Entry>, k: string, status: string)
    requires AllValid(t)
    ensures AllValid(Bump(t, k, status))
    decreases |t|
  {
    if |t| == 0 {
      AllValidCons(Entry(k, Update(NewStats(), status)), []);
      assert [Entry(k, Update(NewStats(), status))] + [] == Bump(t, k, status);
    } else {
      AllValidCons(t[0], t[1..]);
      assert t == [t[0]] + t[1..];
      if t[0].key == k {
        AllValidCons(Entry(k, Update(t[0].counter, status)), t[1..]);
      } else if StrLess(k, t[0].key) {
        AllValidCons(Entry(k, Update(NewStats(), status)), t);
      } else {
        BumpValid(t[1..], k, status);
        AllValidCons(t[0], Bump(t[1..], k, status));
      }
    }
  }

  lemma {:induction false} BumpSum(t: seq<Entry>, k: string, status: string)
    ensures SumTotals(Bump(t, k, status)) == SumTotals(t) + 1
    ensures AllValid(t) ==> AllValid(Bump(t, k, status))
  {
    BumpTotals(t, k, status);
    if AllValid(t) {
      BumpValid(t, k, status);
    }
  }

  /**
   * Bumping keeps the table sorted, counts one more status under `k` (starting
   * from the fresh counter when `k` was absent), leaves every other key as it
   * was, adds `k` to the keys, and raises the sum of totals by one.
   */
  lemma {:induction false} BumpSpec(t: seq<Entry>, k: string, status: string)
    requires Sorted(t)
    ensures Sorted(Bump(t, k, status))
    ensures Get(Bump(t, k, status), k) == Some(Update(GetOr(t, k), status))
    ensures forall j :: j != k ==> Get(Bump(t, k, status), j) == Get(t, j)
    ensures Keys(Bump(t, k, status)) == Keys(t) + {k}
    ensures SumTotals(Bump(t, k, status)) == SumTotals(t) + 1
    ensures AllValid(t) ==> AllValid(Bump(t, k, status))
  {
    var r := Bump(t, k, status);
    BumpSorted(t, k, status);
    BumpGet(t, k, status);
    BumpSum(t, k, status);
    forall x ensures x in Keys(r) <==> x in Keys(t) + {k} {
      GetPresent(r, x);
      GetPresent(t, x);
    }
  }
}

=== FILE: text.dfy ===
/**
 * String helpers the aggregation relies on: ASCII case folding (the only
 * case folding modelled), Python's whitespace `strip`, `split` on one
 * separator character and its inverse `join`, and the code-point
 * lexicographic order that `sorted` uses on string keys.
 */
module Text {

  /** Python's `str.isspace` for a single character. */
  predicate IsSpace(c: char) {
    var n := c as int;
    || (9 <= n <= 13)
    || (0x1c <= n <= 0x20)
    || n == 0x85 || n == 0xa0 || n == 0x1680
    || (0x2000 <= n <= 0x200a)
    || n == 0x2028 || n == 0x2029 || n == 0x202f || n == 0x205f || n == 0x3000
  }

  function LowerChar(c: char): char {
    if 'A' <= c <= 'Z' then (c as int + 32) as char else c
  }

  function UpperChar(c: char): char {
    if 'a' <= c <= 'z' then (c as int - 32) as char else c
  }

  /** ASCII `str.lower()`. */
  function Lower(s: string): string {
    seq(|s|, i requires 0 <= i < |s| => LowerChar(s[i]))
  }

  /** ASCII `str.upper()`. */
  function Upper(s: string): string {
    seq(|s|, i requires 0 <= i < |s| => UpperChar(s[i]))
  }

  /** Lower-casing neither creates nor removes whitespace. */
  lemma {:induction false} LowerKeepsSpaces(s: string)
    ensures forall i :: 0 <= i < |s| ==> (IsSpace(Lower(s)[i]) <==> IsSpace(s[i]))
  {
  }

  /** Upper-casing ignores the case of the input. */
  lemma {:induction false} UpperIgnoresCase(s: string)
    ensures Upper(Lower(s)) == Upper(s)
    ensures Upper(Upper(s)) == Upper(s)
  {
  }

  /** `lstrip()`: drops leading whitespace. */
  function StripLeft(s: string): (r: string)
    ensures |r| <= |s|
  {
    if |s| > 0 && IsSpace(s[0]) then StripLeft(s[1..]) else s
  }

  /** `rstrip()`: drops trailing whitespace. */
  function StripRight(s: string): (r: string)
    ensures |r| <= |s|
  {
    if |s| > 0 && IsSpace(s[|s| - 1]) then StripRight(s[..|s| - 1]) else s
  }

  /** `lstrip()` keeps a suffix, drops only whitespace, and stops at the first non-whitespace character. */
  lemma {:induction false} StripLeftSpec(s: string)
    ensures StripLeft(s) == s[|s| - |StripLeft(s)|..]
    ensures forall k :: 0 <= k < |s| - |StripLeft(s)| ==> IsSpace(s[k])
    ensures StripLeft(s) == [] || !IsSpace(StripLeft(s)[0])
    decreases |s|
  {
    if |s| > 0 && IsSpace(s[0]) {
      StripLeftSpec(s[1..]);
      assert s[1..][|s| - 1 - |StripLeft(s)|..] == s[|s| - |StripLeft(s)|..];
      forall k | 0 <= k < |s| - |StripLeft(s)| ensures IsSpace(s[k]) {
        if k > 0 {
          assert s[k] == s[1..][k - 1];
        }
      }
    }
  }

  /** `rstrip()` keeps a prefix, drops only whitespace, and stops at the last non-whitespace character. */
  lemma {:induction false} StripRightSpec(s: string)
    ensures StripRight(s) == s[..|StripRight(s)|]
    ensures forall k :: |StripRight(s)| <= k < |s| ==> IsSpace(s[k])
    ensures StripRight(s) == [] || !IsSpace(StripRight(s)[|StripRight(s)| - 1])
    decreases |s|
  {
    if |s| > 0 && IsSpace(s[|s| - 1]) {
      var init := s[..|s| - 1];
      StripRightSpec(init);
      assert init[..|StripRight(s)|] == s[..|StripRight(s)|];
      forall k | |StripRight(s)| <= k < |s| ensures IsSpace(s[k]) {
        if k < |s| - 1 {
          assert s[k] == init[k];
        }
      }
    }
  }

  /** No whitespace at either end. */
  predicate Trimmed(s: string) {
    s == [] || (!IsSpace(s[0]) && !IsSpace(s[|s| - 1]))
  }

  /** No ASCII upper-case letter anywhere. */
  predicate NoUpper(s: string) {
    forall i :: 0 <= i < |s| ==> !('A' <= s[i] <= 'Z')
  }

  lemma {:induction false} LowerHasNoUpper(s: string)
    ensures NoUpper(Lower(s))
  {
  }

  lemma {:induction false} NoUpperIsLower(s: string)
    requires NoUpper(s)
    ensures Lower(s) == s
  {
  }

  lemma {:induction false} LowerKeepsTrimmed(s: string)
    requires Trimmed(s)
    ensures Trimmed(Lower(s))
  {
    LowerKeepsSpaces(s);
  }

  /** Python's `str.strip()`. */
  function Strip(s: string): (r: string)
    ensures Trimmed(r)
    ensures |r| <= |s|
  {
    StripLeftSpec(s);
    StripRightSpec(StripLeft(s));
    StripRight(StripLeft(s))
  }

  /**
   * What `strip` leaves: the slice of `s` between its leading and trailing
   * whitespace, which is empty exactly when `s` is all whitespace.
   */
  lemma {:induction false} StripSpec(s: string)
    ensures exists i, j ::
              && 0 <= i <= j <= |s| && Strip(s) == s[i..j]
              && (forall k :: 0 <= k < i ==> IsSpace(s[k]))
              && (forall k :: j <= k < |s| ==> IsSpace(s[k]))
    ensures Strip(s) == [] <==> forall k :: 0 <= k < |s| ==> IsSpace(s[k])
  {
    var i, j := StripBounds(s);
    if Strip(s) == [] {
      forall k | 0 <= k < |s| ensures IsSpace(s[k]) {
        if k >= i {
          assert k >= j;
        }
      }
    }
  }

  /** The positions `strip` cuts at, with whitespace outside them. */
  lemma {:induction false} StripBounds(s: string) returns (i: nat, j: nat)
    ensures 0 <= i <= j <= |s| && Strip(s) == s[i..j]
    ensures forall k :: 0 <= k < i ==> IsSpace(s[k])
    ensures forall k :: j <= k < |s| ==> IsSpace(s[k])
    ensures i < j ==> !IsSpace(s[i])
  {
    var left := StripLeft(s);
    var r := StripRight(left);
    StripLeftSpec(s);
    StripRightSpec(left);
    i := |s| - |left|;
    j := i + |r|;
    assert left == s[i..];
    assert r == left[..|r|];
    assert s[i..][..|r|] == s[i..j];
    forall k | j <= k < |s| ensures IsSpace(s[k]) {
      assert s[k] == left[k - i];
    }
    if i < j {
      assert r[0] == left[0];
    }
  }

  /** `strip` only removes characters: a character absent from `s` is absent from its strip. */
  lemma {:induction false} StripKeepsAbsent(s: string, c: char)
    requires c !in s
    ensures c !in Strip(s)
  {
    var left := StripLeft(s);
    var r := StripRight(left);
    StripLeftSpec(s);
    StripRightSpec(left);
    forall k | 0 <= k < |r| ensures r[k] != c {
      assert r[k] == left[k];
      assert left[k] == s[|s| - |left| + k];
    }
  }

  /** A trimmed string is its own strip. */
  lemma {:induction false} StripTrimmed(s: string)
    requires Trimmed(s)
    ensures Strip(s) == s
  {
  }

  /** Python's `s.split(sep)` for a one-character separator. */
  function Split(s: string, sep: char): (r: seq<string>)
    ensures |r| >= 1
  {
    if |s| == 0 then [""]
    else if s[0] == sep then [""] + Split(s[1..], sep)
    else
      var rest := Split(s[1..], sep);
      [[s[0]] + rest[0]] + rest[1..]
  }

  /** The parts `split` returns hold no separator, and joining them back gives the input. */
  lemma {:induction false} SplitSpec(s: string, sep: char)
    ensures forall i :: 0 <= i < |Split(s, sep)| ==> sep !in Split(s, sep)[i]
    ensures Join(Split(s, sep), sep) == s
    decreases |s|
  {
    if |s| > 0 {
      SplitSpec(s[1..], sep);
      var rest := Split(s[1..], sep);
      if s[0] == sep {
        assert Split(s, sep) == [""] + rest;
        assert ([""] + rest)[1..] == rest;
      } else {
        var r := [[s[0]] + rest[0]] + rest[1..];
        assert Split(s, sep) == r;
        assert r[1..] == rest[1..];
        assert [s[0]] + s[1..] == s;
      }
    }
  }

  /** Python's `sep.join(parts)`. */
  function Join(parts: seq<string>, sep: char): string {
    if |parts| == 0 then ""
    else if |parts| == 1 then parts[0]
    else parts[0] + [sep] + Join(parts[1..], sep)
  }

  lemma {:induction false} SplitLeadingPart(a: string, rest: string, sep: char)
    requires sep !in a
    ensures Split(a + [sep] + rest, sep) == [a] + Split(rest, sep)
    decreases |a|
  {
    if |a| == 0 {
      assert a + [sep] + rest == [sep] + rest;
      assert ([sep] + rest)[1..] == rest;
    } else {
      var s := a + [sep] + rest;
      assert s[1..] == a[1..] + [sep] + rest;
      SplitLeadingPart(a[1..], rest, sep);
      assert [s[0]] + a[1..] == a;
    }
  }

  lemma {:induction false} SplitSinglePart(a: string, sep: char)
    requires sep !in a
    ensures Split(a, sep) == [a]
    decreases |a|
  {
    if |a| > 0 {
      SplitSinglePart(a[1..], sep);
      assert [a[0]] + a[1..] == a;
    }
  }

  /** `split` undoes `join` whenever no part contains the separator. */
  lemma {:induction false} SplitJoin(parts: seq<string>, sep: char)
    requires |parts| >= 1
    requires forall i :: 0 <= i < |parts| ==> sep !in parts[i]
    ensures Split(Join(parts, sep), sep) == parts
    decreases |parts|
  {
    if |parts| == 1 {
      SplitSinglePart(parts[0], sep);
    } else {
      SplitJoin(parts[1..], sep);
      SplitLeadingPart(parts[0], Join(parts[1..], sep), sep);
      assert [parts[0]] + parts[1..] == parts;
    }
  }

  /** The order Python's `<` puts on strings: code point by code point, a proper prefix first. */
  predicate StrLess(a: string, b: string) {
    if |a| == 0 then |b| > 0
    else if |b| == 0 then false
    else if a[0] != b[0] then a[0] < b[0]
    else StrLess(a[1..], b[1..])
  }

  lemma {:induction false} StrLessIrreflexive(a: string)
    ensures !StrLess(a, a)
    decreases |a|
  {
    if |a| > 0 {
      StrLessIrreflexive(a[1..]);
    }
  }

  lemma {:induction false} StrLessTransitive(a: string, b: string, c: string)
    requires StrLess(a, b) && StrLess(b, c)
    ensures StrLess(a, c)
    decreases |a|
  {
    if |a| > 0 && |b| > 0 && |c| > 0 && a[0] == b[0] && b[0] == c[0] {
      StrLessTransitive(a[1..], b[1..], c[1..]);
    }
  }

  lemma {:induction false} StrLessTotal(a: string, b: string)
    requires a != b
    ensures StrLess(a, b) || StrLess(b, a)
    decreases |a|
  {
    if |a| > 0 && |b| > 0 && a[0] == b[0] {
      assert a == [a[0]] + a[1..] && b == [b[0]] + b[1..];
      StrLessTotal(a[1..], b[1..]);
    }
  }

  lemma {:induction false} StrLessAsymmetric(a: string, b: string)
    requires StrLess(a, b)
    ensures !StrLess(b, a)
    decreases |a|
  {
    if |a| > 0 && |b| > 0 && a[0] == b[0] {
      StrLessAsymmetric(a[1..], b[1..]);
    }
  }
}
